=== FILE: README.md ===
# gagym core, modelled in Dafny

gagym is a fitness-club application. It has three parts: a React front end, a Spring
back end and an older single-page script. This project models the logic parts of each
as pure Dafny functions over immutable datatypes, and proves properties of them.

- **Goals** (`goal_store.dfy`, `create_goal.dfy`, `goal_list.dfy`, `goal_detail.dfy`):
  the personal-goal pages keep a list of goals in browser storage.
  - The model covers form validation, creating a goal, and the filter/search of the list.
  - It covers the status badge counts, progress updates with clamping, and deletion after
    confirmation.
  - It covers editing, the progress buttons and the completion and overdue notices.
  - Storage is a value: `Missing`, `Saved(goals)` or `Unparseable`.
- **Purchases** (`purchase_service.dfy`): buying a ticket, using its QR code at the door,
  cancelling, and listing active and expired purchases.
- **Accounts** (`auth_service.dfy`, `oauth2_controller.dfy`):
  - e-mail verification codes with a ten-minute lifetime, and local sign-up;
  - find-or-create social login;
  - the OAuth2 endpoint that reads Google, Kakao or Naver attribute maps and fills in
    default values.
- **Catalogue** (`gym_service.dfy`, `ticket_service.dfy`):
  - registering, editing and reading gyms, with the comma-joined facility list;
  - creating, editing, deactivating and looking up tickets.
- **Client-side lists** (`gym_list.dfy`, `trainer_list.dfy`, `legacy_script.dfy`):
  search, filter and sort on the gym and trainer pages and in the legacy script.
- **Shared pieces**:
  - `wrappers.dfy`: Option and Result.
  - `text.dfy`: ASCII lower-casing, substring search, ECMAScript whitespace trimming, and
    decimal `parseInt` / number-to-string.
  - `seqs.dfy`: filter, first index and subsequence.
  - `sorting.dfy`: a sort by integer key that keeps the input order of equal keys, as
    `Array.prototype.sort` does with a numeric comparator. Stability is proved: for every
    key value, the elements with that key appear in the same order as in the input.
  - `entities.dfy`: the JPA entities.

Inputs that the code gets from its environment are parameters of the model:

- the clock: `Date.now()`, `new Date()` and `LocalDateTime.now()`;
- random digits and UUIDs;
- database-generated keys;
- the password encoder's output;
- the confirmation dialog's answer;
- the parsed `Date` of a goal's target date.

Time is integer seconds on the server side. Ratings, distances and money are integers.

A corrupt stored goal list makes `JSON.parse` throw (`GoalList.tsx:22`, `GoalDetail.tsx:31`).

- `Load` returns an error, submission ends in `Threw`, and the detail page's operations
  return `Err`.
- A missing key, and the empty string, read as `[]` (the `|| '[]'` fallback).

`createGym` builds the entity with Lombok's builder, and the builder ignores the field
initialisers `rating = 0.0` and `reviewCount = 0`. So `GymService.CreateGym` gives a new
gym no rating and no review count (`None`, i.e. null).

## Model

| member | source | states |
|---|---|---|
| GoalStore.Load | gagym/frontend/src/pages/GoalList.tsx:22 | reading storage fails exactly on an unparseable value; a missing key reads as the empty list |
| GoalStore.Clamp | gagym/frontend/src/pages/GoalList.tsx:48 | the stored progress is always in [0,100], equal to the request inside the range, 0 below and 100 above |
| GoalStore.EnabledStepMoves | gagym/frontend/src/pages/GoalDetail.tsx:267-294 | an enabled ±5/±10 button always changes the progress, in the button's direction, by at most the step |
| GoalStore.ReplaceById | gagym/frontend/src/pages/GoalDetail.tsx:61 | the goals with the id become the updated record; every other goal is unchanged and the length is kept |
| GoalStore.ReplaceByIdKeepsInvariants | gagym/frontend/src/pages/GoalDetail.tsx:59-63 | replacing by id keeps ids unique and progress in range |
| GoalStore.RemoveId | gagym/frontend/src/pages/GoalList.tsx:40 | after removal the id is absent; every goal with another id is kept, in order |
| GoalStore.RemoveAbsentId | gagym/frontend/src/pages/GoalList.tsx:38-43 | removing an absent id is a no-op |
| GoalStore.RemoveIdKeepsInvariants | gagym/frontend/src/pages/GoalDetail.tsx:81-83 | removal keeps ids unique and progress in range |
| CreateGoal.ValidateForm | gagym/frontend/src/pages/CreateGoal.tsx:45-71 | a field has an error exactly when its own check fails, whatever the other fields hold, with the fixed message for that check |
| CreateGoal.ErrorsAreFailingFields | gagym/frontend/src/pages/CreateGoal.tsx:45-71 | the keys of the error object are exactly the fields whose own check fails |
| CreateGoal.ValidIffNoFieldFails | gagym/frontend/src/pages/CreateGoal.tsx:48-54 | the form is valid iff no field fails; an all-whitespace title or description is an error |
| CreateGoal.EmptyTitleAndPastDateGiveTwoErrors | gagym/frontend/src/pages/CreateGoal.tsx:56-64 | an empty title and a past date give two separate errors; a past date gets the "after today" message, not the "required" one |
| CreateGoal.HandleSubmit | gagym/frontend/src/pages/CreateGoal.tsx:74-90 | an invalid form is rejected with the validation errors; a valid one throws on unreadable storage, and otherwise appends a progress-0 goal built from the form |
| CreateGoal.SubmitEffect | gagym/frontend/src/pages/CreateGoal.tsx:77-90 | rejection or failure leaves storage unchanged; success keeps earlier goals in order and keeps the store invariants |
| CreateGoal.HandleInputChange | gagym/frontend/src/pages/CreateGoal.tsx:103-117 | editing a field blanks only that field's error; every other error and every key is kept |
| CreateGoal.PriorityDefaultsToMedium | gagym/frontend/src/pages/CreateGoal.tsx:19-25 | a form whose priority select is never touched submits priority medium |
| CreateGoal.PriorityKept | gagym/frontend/src/pages/CreateGoal.tsx:103-108 | changes to other inputs never alter the priority |
| GoalList.FilteredGoals | gagym/frontend/src/pages/GoalList.tsx:26-36 | the list holds exactly the goals that pass both the status filter and the search, as an order-preserving subsequence |
| GoalList.ListAllUnfiltered | gagym/frontend/src/pages/GoalList.tsx:26-36 | filter "all" with an empty search lists the whole collection in stored order |
| GoalList.StatusCounts | gagym/frontend/src/pages/GoalList.tsx:96-114 | the "all" badge is the number of goals; each status badge is the length of the list that its filter button shows with an empty search; with in-range progress the three status badges sum to the total |
| GoalList.BadgeMatchesList | gagym/frontend/src/pages/GoalList.tsx:26-36 | a badge predicate that agrees with a status filter counts exactly the goals the list shows for that filter |
| GoalList.BucketCountsSum | gagym/frontend/src/pages/GoalList.tsx:102-114 | the in-progress, completed and not-started counts add up to the number of goals |
| GoalList.BucketsPartition | gagym/frontend/src/pages/GoalList.tsx:27-30 | an in-range goal is in exactly one status bucket |
| GoalList.DeleteGoal | gagym/frontend/src/pages/GoalList.tsx:38-44 | an unconfirmed delete changes nothing; a confirmed one removes every goal with the id and keeps the rest in order |
| GoalList.DeleteFacts | gagym/frontend/src/pages/GoalList.tsx:38-43 | deleting an absent id is a no-op; after a confirmed delete the full list no longer shows the id |
| GoalList.UpdateProgress | gagym/frontend/src/pages/GoalList.tsx:46-52 | goals with the id get the clamped progress and keep every other field; other goals are untouched |
| GoalList.UpdateProgressFacts | gagym/frontend/src/pages/GoalList.tsx:46-51 | updates keep the invariants, and the later of two updates to one id wins |
| GoalList.ProgressColor | gagym/frontend/src/pages/GoalList.tsx:63-68 | green iff 100, orange iff in [70,100) or above 100, red-orange iff in [30,70), grey iff below 30 |
| GoalList.ProgressColorFacts | gagym/frontend/src/pages/GoalList.tsx:63-68 | the colour never gets colder as in-range progress grows |
| GoalDetail.FindGoal | gagym/frontend/src/pages/GoalDetail.tsx:31-32 | the goal shown is the first whose id equals `parseInt` of the route; none iff the route does not parse or no goal has that id |
| GoalDetail.FirstWithId | gagym/frontend/src/pages/GoalDetail.tsx:32 | `find` returns the first goal with the id, and nothing iff no goal has it |
| GoalDetail.FindByRenderedId | gagym/frontend/src/pages/GoalDetail.tsx:31-42 | following the link of any stored goal finds a goal with that id |
| GoalDetail.Open | gagym/frontend/src/pages/GoalDetail.tsx:30-54 | opening fails exactly on unreadable storage; otherwise it shows the looked-up goal, or nothing (the not-found path) |
| GoalDetail.UpdateProgress | gagym/frontend/src/pages/GoalDetail.tsx:56-65 | with no goal nothing happens; otherwise the page's copy with clamped progress replaces every stored goal with that id, re-reading storage |
| GoalDetail.ClickStep | gagym/frontend/src/pages/GoalDetail.tsx:266-294 | clicking an enabled step button fails exactly on unreadable storage; otherwise the page shows and stores the goal with its progress plus the step, clamped; from in-range progress it stays in range and moves in the step's direction by at most the step |
| GoalDetail.UpdateProgressKeepsInvariants | gagym/frontend/src/pages/GoalDetail.tsx:59-63 | the stored range invariant and id uniqueness survive a progress update |
| GoalDetail.Merge | gagym/frontend/src/pages/GoalDetail.tsx:101 | the edited goal takes the five edited fields and keeps id, progress and creation time |
| GoalDetail.SaveChanges | gagym/frontend/src/pages/GoalDetail.tsx:98-107 | saving writes the merged goal over the stored goals with that id, with no validation |
| GoalDetail.SaveChangesKeepsInvariants | gagym/frontend/src/pages/GoalDetail.tsx:98-106 | saving keeps progress in range and ids unique |
| GoalDetail.DeleteGoal | gagym/frontend/src/pages/GoalDetail.tsx:67-96 | the goal is removed from storage only when the dialog is confirmed; every stored goal with another id is kept |
| GoalDetail.DeleteGoalKeepsInvariants | gagym/frontend/src/pages/GoalDetail.tsx:81-83 | deleting from the detail page keeps ids unique and progress in range |
| GoalDetail.NoticesExclusive | gagym/frontend/src/pages/GoalDetail.tsx:298-310 | the celebration (progress 100) and the overdue warning (days < 0 and progress < 100) never show together |
| PurchaseService.ActivePurchases | gagym/src/main/java/com/gagym/service/PurchaseService.java:37-43 | exactly the user's COMPLETED, unused purchases whose expiry is after now, in order; a used purchase never appears |
| PurchaseService.ExpiredPurchases | gagym/src/main/java/com/gagym/service/PurchaseService.java:109-110 | exactly the purchases whose expiry is strictly before now |
| PurchaseService.PurchaseTicket | gagym/src/main/java/com/gagym/service/PurchaseService.java:53-73 | an unknown user, then an unknown ticket, is refused; otherwise an unused COMPLETED purchase is appended under the generated key, priced at the ticket price and expiring validDays after now |
| PurchaseService.UseTicket | gagym/src/main/java/com/gagym/service/PurchaseService.java:76-93 | an unknown code, then a used purchase, then expiry strictly before now is refused; otherwise that purchase is marked used at now and nothing else changes |
| PurchaseService.CancelPurchase | gagym/src/main/java/com/gagym/service/PurchaseService.java:96-106 | an unknown id is refused; for the first purchase with the id, a used one is refused as used, and an unused one becomes CANCELLED with every other purchase unchanged |
| PurchaseService.CancelIdempotent | gagym/src/main/java/com/gagym/service/PurchaseService.java:100-104 | cancelling twice equals cancelling once |
| PurchaseService.CancelledPurchaseCanBeUsed | gagym/src/main/java/com/gagym/service/PurchaseService.java:80-89 | the status is never checked, so a cancelled, unused, unexpired purchase can still be used, though it is not active |
| PurchaseService.ExpiryBoundary | gagym/src/main/java/com/gagym/service/PurchaseService.java:40 | at the exact expiry instant a purchase can still be used but no longer counts as active |
| PurchaseService.UseIsFinal | gagym/src/main/java/com/gagym/service/PurchaseService.java:80-82 | a used purchase is never active again, and using its code again is refused as already used |
| PurchaseService.CancelAfterUseFails | gagym/src/main/java/com/gagym/service/PurchaseService.java:100-102 | once a purchase is used it cannot be cancelled |
| PurchaseService.NewPurchaseIsActive | gagym/src/main/java/com/gagym/service/PurchaseService.java:60-69 | a fresh purchase of a ticket valid for at least a day is active and listed for its user |
| PurchaseService.ActiveAndExpiredDisjoint | gagym/src/main/java/com/gagym/service/PurchaseService.java:37-43 | no purchase is both active and expired |
| AuthService.GenerateVerificationCode | gagym/src/main/java/com/gagym/service/AuthService.java:174-181 | the code has exactly six characters, each the decimal digit of one random draw |
| AuthService.SendVerificationEmail | gagym/src/main/java/com/gagym/service/AuthService.java:33-48 | records expired before now are purged, the others are kept in order, and an unverified record expiring ten minutes from now is appended |
| AuthService.MarkEmailVerified | gagym/src/main/java/com/gagym/service/AuthService.java:64-67 | users with the address get the verified flag; all other users are untouched |
| AuthService.VerifyEmail | gagym/src/main/java/com/gagym/service/AuthService.java:51-73 | the answer is true iff the first record for (e-mail, code) is unverified and expires after now; only then is it marked verified and the user updated, otherwise nothing changes |
| AuthService.VerifyOnce | gagym/src/main/java/com/gagym/service/AuthService.java:56-60 | a code that was accepted is refused when it is presented again |
| AuthService.SentCodeExpiresAfterTenMinutes | gagym/src/main/java/com/gagym/entity/EmailVerification.java:41-45 | a code just sent is accepted iff fewer than ten minutes have passed |
| AuthService.IsEmailVerified | gagym/src/main/java/com/gagym/service/AuthService.java:167-171 | two or more records for the address make the single-result query fail; otherwise the one record's flag decides, and no record means not verified |
| AuthService.OnlyRowFor | gagym/src/main/java/com/gagym/reposiotry/EmailVerificationRepository.java:15 | the query answers the one row with the address, none when there is no such row, and a non-unique-result error exactly when there are two |
| AuthService.ResendKeepsBothRecords | gagym/src/main/java/com/gagym/service/AuthService.java:33-48 | a second code sent before the first expires leaves two records for the address, since only expired records are purged |
| AuthService.VerifyKeepsKeys | gagym/src/main/java/com/gagym/service/AuthService.java:51-73 | verifying a code keeps duplicate records duplicate, and adds no e-mail or user name to the users |
| AuthService.ResentCodeBlocksSignup | gagym/src/main/java/com/gagym/service/AuthService.java:88-90 | after a code is resent within ten minutes, a verification attempt followed by sign-up with a free e-mail and user name fails with the non-unique-result error, whether or not the code was accepted |
| AuthService.Signup | gagym/src/main/java/com/gagym/service/AuthService.java:76-102 | a taken e-mail, then a taken user name, then several verification records (query error), then no verified record is refused with nothing saved; success iff none of these holds, appending a verified LOCAL user with role USER |
| AuthService.SignupKeepsUnique | gagym/src/main/java/com/gagym/service/AuthService.java:78-85 | sign-up keeps e-mails and user names unique |
| AuthService.ProcessSocialLogin | gagym/src/main/java/com/gagym/service/AuthService.java:137-152 | an existing user with the address is returned unchanged; otherwise a user named after the address is created with the given provider and provider id, unless that name is taken |
| AuthService.SocialLoginFacts | gagym/src/main/java/com/gagym/service/AuthService.java:138-152 | social login keeps the unique keys, and a second login with the address returns the same user without adding one |
| OAuth2Controller.AsString | gagym/src/main/java/com/gagym/controller/OAuth2Controller.java:42-44 | a cast to String succeeds exactly on null and on strings |
| OAuth2Controller.AsMap | gagym/src/main/java/com/gagym/controller/OAuth2Controller.java:49 | a cast to Map succeeds exactly on null and on maps |
| OAuth2Controller.ValueOf | gagym/src/main/java/com/gagym/controller/OAuth2Controller.java:57 | null becomes "null", a string is itself, and a number becomes its canonical decimal text: an optional '-', digits with no leading zero, parsing back to the number |
| OAuth2Controller.Extract | gagym/src/main/java/com/gagym/controller/OAuth2Controller.java:36-69 | no known key yields no fields; with "sub" it succeeds iff email, name and sub are strings or null, and reads them; with "id" it succeeds iff kakao_account and properties are maps or null and their email and nickname strings or null, reading those and the text of the id; with "response" likewise for the response map's email, name and id |
| OAuth2Controller.GoogleLayoutFirst | gagym/src/main/java/com/gagym/controller/OAuth2Controller.java:41-48 | once "sub" is present, the keys the Kakao and Naver branches read make no difference |
| OAuth2Controller.KakaoLayoutBeforeNaver | gagym/src/main/java/com/gagym/controller/OAuth2Controller.java:48-61 | once "id" is present (and "sub" absent), the Naver "response" key makes no difference |
| OAuth2Controller.DetermineAuthProvider | gagym/src/main/java/com/gagym/controller/OAuth2Controller.java:101-113 | GOOGLE iff the name contains "google"; KAKAO iff not that but "kakao"; NAVER iff neither but "naver"; otherwise LOCAL |
| OAuth2Controller.TempEmail | gagym/src/main/java/com/gagym/controller/OAuth2Controller.java:71-75 | the temporary address is "temp_" + the canonical decimal text of the clock reading + "@oauth.com", and the reading can be read back from it |
| OAuth2Controller.WithDefaults | gagym/src/main/java/com/gagym/controller/OAuth2Controller.java:71-85 | a missing e-mail becomes the temporary address, a missing name "OAuth 사용자", a missing provider id the canonical decimal text of the clock reading; present values are kept |
| OAuth2Controller.GetOAuth2User | gagym/src/main/java/com/gagym/controller/OAuth2Controller.java:25-99 | a null principal is a bad request; a failed cast is a server error; otherwise social login runs on the defaulted fields and the provider of the registration name: its refusal is a bad request that adds nobody, and its user is answered as a login response with the users it leaves |
| OAuth2Controller.RepeatedLoginSameAccount | gagym/src/main/java/com/gagym/controller/OAuth2Controller.java:91-98 | a principal with an e-mail gets the same answer the second time and no user is added, whether the first login succeeded or was refused |
| OAuth2Controller.MissingEmailGivesFreshAddress | gagym/src/main/java/com/gagym/controller/OAuth2Controller.java:71-75 | without an e-mail, logins at different milliseconds use different addresses, so they reach different accounts |
| GymService.Join | gagym/src/main/java/com/gagym/service/GymService.java:107 | `String.join` of no names is empty, of one name is that name, and of more names contains a comma |
| GymService.Split | gagym/src/main/java/com/gagym/service/GymService.java:161 | a string without commas splits to itself (so "" gives [""]); otherwise comma-free pieces that join back to the input minus some trailing commas |
| GymService.JoinCons | gagym/src/main/java/com/gagym/service/GymService.java:107 | joining a name in front of a non-empty list puts a comma between them |
| GymService.JoinSnoc | gagym/src/main/java/com/gagym/service/GymService.java:107 | joining a non-empty list with a name after it puts a comma between them |
| GymService.JoinPrepend | gagym/src/main/java/com/gagym/service/GymService.java:161 | a character added in front of the first piece comes out in front of the joined text |
| GymService.JoinPieces | gagym/src/main/java/com/gagym/service/GymService.java:161 | the raw comma-separated pieces of a string join back to the string |
| GymService.JoinTrailingEmpty | gagym/src/main/java/com/gagym/service/GymService.java:107 | m trailing empty names add m commas to the joined text |
| GymService.DroppedAreEmpty | gagym/src/main/java/com/gagym/service/GymService.java:161 | the pieces dropped at the end of a split are all empty |
| GymService.JoinPadded | gagym/src/main/java/com/gagym/service/GymService.java:107 | a list followed by m empty names joins as its own join followed by m commas, or m - 1 when the list is empty |
| GymService.JoinDropTrailing | gagym/src/main/java/com/gagym/service/GymService.java:161 | dropping trailing empty pieces loses only trailing commas of the joined text |
| GymService.SplitJoinsBack | gagym/src/main/java/com/gagym/service/GymService.java:161 | a split string is the join of its kept pieces followed by some commas |
| GymService.SplitJoinRoundTrip | gagym/src/main/java/com/gagym/service/GymService.java:107 | splitting a joined list gives the list back when it is non-empty and its names are non-empty and comma-free |
| GymService.SplitJoinEdgeCases | gagym/src/main/java/com/gagym/service/GymService.java:161 | the empty list comes back as [""], a trailing empty name is lost, and an interior empty name ("a,,b") is kept |
| GymService.ConvertToDto | gagym/src/main/java/com/gagym/service/GymService.java:143-169 | isFavorite holds iff a user is given and the pair is in the favourites table, so it is false with no user; the facility list is the split text; every other field is copied from the gym |
| GymService.GetGymById | gagym/src/main/java/com/gagym/service/GymService.java:32-36 | an unknown id is an error; a known one gives that gym's DTO |
| GymService.CreateGym | gagym/src/main/java/com/gagym/service/GymService.java:95-113 | exactly one gym is added under the new key; it takes each of the twelve editable fields from the request, with the facilities joined, and has no rating or review count; the other gyms are untouched |
| GymService.CreateThenGet | gagym/src/main/java/com/gagym/service/GymService.java:107 | a gym registered with a well-formed facility list is read back with that list |
| GymService.UpdateGym | gagym/src/main/java/com/gagym/service/GymService.java:116-135 | an unknown id is an error; otherwise the twelve editable fields are overwritten, and id, rating, review count and the other gyms are kept |
| GymService.UpdateGymFacts | gagym/src/main/java/com/gagym/service/GymService.java:120-133 | updates keep each gym filed under its own id, and repeating an update changes nothing further |
| TicketService.ParseTicketType | gagym/src/main/java/com/gagym/entity/Ticket.java:67-71 | `valueOf` accepts exactly the four constant names and maps each to its constant |
| TicketService.CreateTicket | gagym/src/main/java/com/gagym/service/TicketService.java:50-67 | an unknown gym, then an unknown type name, is refused; otherwise an active ticket with the generated QR code is appended |
| TicketService.UpdateTicket | gagym/src/main/java/com/gagym/service/TicketService.java:70-82 | an unknown id is refused; otherwise name, description, price, valid days and the active flag change, while type, QR code and gym stay |
| TicketService.UpdateTicketFacts | gagym/src/main/java/com/gagym/service/TicketService.java:70-82 | an update keeps every ticket's id, type, QR code and gym, and repeating it changes nothing further |
| TicketService.DeactivateTicket | gagym/src/main/java/com/gagym/service/TicketService.java:85-91 | an unknown id is refused; otherwise that ticket becomes inactive and nothing else changes |
| TicketService.DeactivateIdempotent | gagym/src/main/java/com/gagym/service/TicketService.java:89 | deactivating twice equals deactivating once |
| TicketService.GetTicketByQrCode | gagym/src/main/java/com/gagym/service/TicketService.java:41-47 | no ticket with the code is an error; otherwise the first ticket with the code |
| TicketService.FirstMatchHeadsFilter | gagym/src/main/java/com/gagym/service/TicketService.java:46 | the first element of the match list is the first matching ticket |
| TicketService.CreatedTicketFoundByQr | gagym/src/main/java/com/gagym/service/TicketService.java:60 | a ticket created with an unused QR code is what a lookup by that code returns |
| GymList.SortCards | gagym/frontend/src/pages/GymList.tsx:87-98 | the result is a permutation, sorted by distance ascending, rating descending or fee ascending, with ties in input order; any other key keeps the order |
| GymList.FilterAndSortGyms | gagym/frontend/src/pages/GymList.tsx:75-101 | the result is a permutation of the gyms passing search, inclusive fee range and facility filter, sorted by the chosen key with ties in loaded order |
| GymList.InitialView | gagym/frontend/src/pages/GymList.tsx:19-22 | the initial page shows every gym with fee in [0, 200000], nearest first |
| GymList.ToggleFacility | gagym/frontend/src/pages/GymList.tsx:103-109 | a selected facility is removed and the rest keep their order; an unselected one is appended |
| GymList.ToggleTwiceRestores | gagym/frontend/src/pages/GymList.tsx:103-109 | toggling an unselected facility twice restores the selection |
| TrainerList.SortTrainers | gagym/frontend/src/pages/TrainerList.tsx:74-85 | the result is a permutation, sorted by rating descending, experience descending or price ascending, with ties in input order; any other key keeps the order |
| TrainerList.FilteredTrainers | gagym/frontend/src/pages/TrainerList.tsx:69-85 | the result is a permutation of the trainers whose name or gym matches and whose specialization is unselected or equal, in the chosen order with ties in loaded order |
| TrainerList.InitialView | gagym/frontend/src/pages/TrainerList.tsx:18-20 | the initial page shows every trainer, best rated first |
| LegacyScript.SearchGyms | gagym/script.js:94-101 | the grid shows exactly the loaded gyms whose name or address contains the term, in loaded order |
| LegacyScript.SearchTrainers | gagym/script.js:168-175 | the grid shows exactly the loaded trainers whose name or specialization contains the term, in loaded order |
| LegacyScript.SortGyms | gagym/script.js:103-120 | a permutation of the loaded gyms, by rating descending or fee ascending with a missing value counting as 0 and ties in loaded order; "distance" keeps the order; the global list is unchanged |
| LegacyScript.SortTrainers | gagym/script.js:177-194 | a permutation of the loaded trainers, by rating or experience descending or price ascending, with missing values as 0 and ties in loaded order; the global list is unchanged |
| LegacyScript.SearchIgnoresEarlierSort | gagym/script.js:96 | a search after a sort shows the same list as a search without it |
| LegacyScript.EmptySearchShowsAll | gagym/script.js:94-100 | an empty search shows every loaded gym in order |
| LegacyScript.EmptyTrainerSearchShowsAll | gagym/script.js:168-174 | an empty search shows every loaded trainer in order |
| LegacyScript.PopularGyms | gagym/script.js:300 | the strip shows the first min(4, n) gyms |
| Text.Lower | gagym/frontend/src/pages/GoalList.tsx:32 | lower-casing keeps the length and lower-cases each character |
| Text.LowerIdempotent | gagym/frontend/src/pages/GoalList.tsx:32-33 | lower-casing twice equals lower-casing once |
| Text.Includes | gagym/frontend/src/pages/GoalList.tsx:32-33 | the scan answers true iff the term occurs at some position |
| Text.TrimStartFacts | gagym/frontend/src/pages/CreateGoal.tsx:48 | `trimStart` leaves a suffix of the input that does not start with whitespace, having dropped only whitespace |
| Text.TrimEndFacts | gagym/frontend/src/pages/CreateGoal.tsx:48 | `trimEnd` leaves a prefix of the input that does not end with whitespace, having dropped only whitespace |
| Text.TrimEmptyIff | gagym/frontend/src/pages/CreateGoal.tsx:48-54 | trimming yields "" iff every character is whitespace |
| Text.ParseIntOfIntToString | gagym/frontend/src/pages/GoalDetail.tsx:32 | `parseInt` of a number's decimal text gives the number back |
| Sorting.SortBy | gagym/frontend/src/pages/GymList.tsx:87-98 | the result is sorted by the key and is a permutation of the input |
| Sorting.InsertTies | gagym/frontend/src/pages/GymList.tsx:87-98 | inserting an element puts it ahead of every element with its key, and leaves the elements of other keys as they were |
| Sorting.SortByStable | gagym/frontend/src/pages/GymList.tsx:87-98 | for every key value, the sorted list holds the elements with that key in input order |
| Sorting.SortByConstantKey | gagym/frontend/src/pages/GymList.tsx:95-96 | a comparator that always answers 0 leaves the order unchanged |

## Left out

- Network calls, mock-data fallbacks, SweetAlert dialogs, navigation and rendering: these are I/O. A dialog's answer is a boolean input.
- Browser storage and JSON: the stored value is a datatype. Writes always succeed.
- `AuthService.login` and JWT tokens: they are calls into Spring Security and a token library. `LoginResponse` carries no token.
- E-mail sending (`EmailService`): I/O.
- The password encoder: its output is an input.
- Timestamps `createdAt` and `updatedAt` on the Java entities, and the ticket DTO's `gymName` and display name: bookkeeping with no decisions.
- `getAllGyms`, the location, price, name, address and facility searches, and the rating and price orderings of `GymService`: single repository queries with no logic in the service.
- `getTicketsByGymId` and `getTicketsByType`: single repository queries with no logic in the service.
- `getPurchasesByUserId` and `getPurchaseByQrCode`: single repository queries with no logic in the service.
- `deleteGym`: a plain `deleteById` whose behaviour on a missing id depends on the Spring Data version.
- `getDaysRemaining` (millisecond arithmetic and `Math.ceil`): floating point. `GoalDetail.ShowsOverdue` takes the number of days as an input.
- `new Date(targetDate)`: date parsing is an input `targetInstant`. `None` stands for an invalid date, which never compares as past.
- Ratings, distances, coordinates and prices are floating point or `BigDecimal` in the code and integers here.
- Null fields and the `NullPointerException`s they cause (a null facility list or name, for example): every model field is present unless it is an `Option`.
- Repository methods that return one `Optional` (`findByEmailAndVerificationCode`, `findByQrCode`, `findByEmail`) throw when several rows match. The model takes the first row instead. For these keys the application never stores two rows except by an unlikely random collision. `findByEmailOrderByCreatedAtDesc` is the exception: resending a code does store a second row, so that query is modelled with its error (`AuthService.OnlyRowFor`).
- `Text.Lower`: lower-cases ASCII letters only. `toLowerCase` and `toLowerCase`-based search fold all of Unicode.
- `Text.ParseInt`: decimal only. JavaScript's `parseInt` also accepts a `0x` prefix and loses precision above 2^53; goal ids are millisecond clock readings, far below that.
- `OAuth2Controller.ValueOf`: renders a nested map as "{}" instead of Java's `Map.toString`.
- `OAuth2Controller.GetOAuth2User`: a refused social login is a unique-key violation on the user name. Other database failures are not modelled.
- `GymService.CreateGym`: requires the generated key to be unused, as the database guarantees.
- `GoalDetail.ClickStep`: requires that the button is enabled and that the step is one of the four buttons. A disabled button cannot be clicked.

=== FILE: auth_service.dfy ===
/** E-mail verification codes, local sign-up and find-or-create social login. The user
    table and the verification table are sequences in insertion order; the password
    encoder's output and the random digits of a code are inputs. */
module AuthService {
  import opened Wrappers
  import opened Text
  import opened Seqs
  import opened Entities

  /** The `RuntimeException`s of sign-up, the unique-key violation of the user table that a
      social login can run into, and the exception a single-result query throws when more
      than one row matches. */
  datatype AuthError =
    | EmailTaken | UsernameTaken | EmailNotVerified | DuplicateUsername | NonUniqueResult

  /** `generateVerificationCode`: six calls of `random.nextInt(10)`, each appended as one
      decimal digit. `draws` are the values the generator returned. */
  function GenerateVerificationCode(draws: seq<int>): (code: string)
    requires |draws| == 6 && forall i :: 0 <= i < 6 ==> 0 <= draws[i] < 10
    ensures |code| == 6 && AllDigits(code)
    ensures forall i :: 0 <= i < 6 ==> DigitValue(code[i]) == draws[i]
  {
    seq(6, i requires 0 <= i < 6 => DigitChar(draws[i]))
  }

  /** Records that `deleteByExpiresAtBefore(now)` keeps. */
  predicate NotExpiredAt(v: EmailVerification, now: Time) {
    !(v.expiresAt < now)
  }

  /** `sendVerificationEmail`: purge every record that expired strictly before now, then
      save an unverified record for `email` created now and expiring ten minutes later.
      Sending the mail itself is not modelled. */
  function SendVerificationEmail(records: seq<EmailVerification>, email: string, code: string,
                                 now: Time): (r: seq<EmailVerification>)
    ensures |r| >= 1
    ensures r[|r| - 1] == EmailVerification(email, code, false, now + VerificationLifetime, None, now)
    ensures forall i :: 0 <= i < |r| - 1 ==> r[i] in records && NotExpiredAt(r[i], now)
    ensures forall i :: 0 <= i < |records| && NotExpiredAt(records[i], now) ==>
      records[i] in r[..|r| - 1]
    ensures IsSubsequence(r[..|r| - 1], records)
  {
    var kept := Filter(records, (v: EmailVerification) => NotExpiredAt(v, now));
    FilterIsSubsequence(records, (v: EmailVerification) => NotExpiredAt(v, now));
    var added := EmailVerification(email, code, false, now + VerificationLifetime, None, now);
    assert (kept + [added])[..|kept|] == kept;
    kept + [added]
  }

  /** `findByEmailAndVerificationCode` as a filter callback. */
  function ForCode(email: string, code: string): EmailVerification -> bool {
    (v: EmailVerification) => v.email == email && v.verificationCode == code
  }

  /** A record accepts a code while it is unverified and its expiry lies after now. */
  predicate Accepts(v: EmailVerification, now: Time) {
    !v.isVerified && v.expiresAt > now
  }

  /** Sets `isEmailVerified` on every user with the address (there is at most one, since
      the column is unique) and leaves every other user as it was. */
  function MarkEmailVerified(users: seq<User>, email: string): (r: seq<User>)
    ensures |r| == |users|
    ensures forall i :: 0 <= i < |users| && users[i].email == email ==>
      r[i] == users[i].(isEmailVerified := true)
    ensures forall i :: 0 <= i < |users| && users[i].email != email ==> r[i] == users[i]
  {
    seq(|users|, i requires 0 <= i < |users| =>
      if users[i].email == email then users[i].(isEmailVerified := true) else users[i])
  }

  /** The outcome of `verifyEmail`: the boolean answer and both tables afterwards. */
  datatype Verification = Verification(ok: bool, records: seq<EmailVerification>, users: seq<User>)

  /** `verifyEmail`: the first record for (email, code) is accepted once, before it
      expires; acceptance marks it verified at `now` and marks the user's address. */
  function VerifyEmail(records: seq<EmailVerification>, users: seq<User>, email: string,
                       code: string, now: Time): (r: Verification)
    ensures r.ok <==> exists i :: FirstMatch(records, email, code, i) && Accepts(records[i], now)
    ensures !r.ok ==> r.records == records && r.users == users
    ensures r.ok ==>
      exists i :: FirstMatch(records, email, code, i) &&
        r.records == records[i := records[i].(isVerified := true, verifiedAt := Some(now))]
    ensures r.ok ==> r.users == MarkEmailVerified(users, email)
    ensures |r.records| == |records| && |r.users| == |users|
    ensures forall i :: 0 <= i < |records| ==> r.records[i].email == records[i].email
    ensures forall i :: 0 <= i < |users| ==>
      r.users[i].email == users[i].email && r.users[i].username == users[i].username
  {
    match FirstIndex(records, ForCode(email, code))
    case None => Verification(false, records, users)
    case Some(i) =>
      if Accepts(records[i], now) then
        assert FirstMatch(records, email, code, i);
        var verified := records[i].(isVerified := true, verifiedAt := Some(now));
        Verification(true, records[i := verified], MarkEmailVerified(users, email))
      else
        assert forall k :: FirstMatch(records, email, code, k) ==> k == i;
        Verification(false, records, users)
  }

  /** `i` is the position `findByEmailAndVerificationCode` returns. */
  predicate FirstMatch(records: seq<EmailVerification>, email: string, code: string, i: int) {
    && 0 <= i < |records|
    && records[i].email == email && records[i].verificationCode == code
    && forall j :: 0 <= j < i ==> !(records[j].email == email && records[j].verificationCode == code)
  }

  /** A code is accepted only once: verifying the same pair again answers false. */
  lemma VerifyOnce(records: seq<EmailVerification>, users: seq<User>, email: string, code: string,
                   now: Time, later: Time)
    requires VerifyEmail(records, users, email, code, now).ok
    ensures var r := VerifyEmail(records, users, email, code, now);
      !VerifyEmail(r.records, r.users, email, code, later).ok
  {
    var r := VerifyEmail(records, users, email, code, now);
    var i :| FirstMatch(records, email, code, i) &&
      r.records == records[i := records[i].(isVerified := true, verifiedAt := Some(now))];
    assert forall k :: 0 <= k < |records| && k != i ==> r.records[k] == records[k];
    assert r.records[i].email == email && r.records[i].verificationCode == code;
    assert forall k :: FirstMatch(r.records, email, code, k) ==> k == i;
  }

  /** A code just sent for an address is accepted exactly while less than ten minutes
      have passed, provided no surviving older record carries the same address and code. */
  lemma SentCodeExpiresAfterTenMinutes(records: seq<EmailVerification>, users: seq<User>,
                                       email: string, code: string, sentAt: Time, now: Time)
    requires forall i :: 0 <= i < |records| && NotExpiredAt(records[i], sentAt) ==>
      !(records[i].email == email && records[i].verificationCode == code)
    ensures VerifyEmail(SendVerificationEmail(records, email, code, sentAt), users, email, code, now).ok
            <==> now < sentAt + 10 * 60
  {
    var r := SendVerificationEmail(records, email, code, sentAt);
    var last := |r| - 1;
    forall j | 0 <= j < last
      ensures !(r[j].email == email && r[j].verificationCode == code)
    {
      var k :| 0 <= k < |records| && records[k] == r[j];
    }
    assert FirstMatch(r, email, code, last);
    assert forall k :: FirstMatch(r, email, code, k) ==> k == last;
  }

  /** Two or more verification records carry the address. */
  predicate SeveralRecordsFor(records: seq<EmailVerification>, email: string) {
    exists a, b :: 0 <= a < b < |records| && records[a].email == email && records[b].email == email
  }

  /** Some verification record for the address is marked verified. */
  predicate VerifiedRecordFor(records: seq<EmailVerification>, email: string) {
    exists i :: 0 <= i < |records| && records[i].email == email && records[i].isVerified
  }

  /** `isEmailVerified`. `findByEmailOrderByCreatedAtDesc` returns an `Optional`, so Spring
      Data runs it as a single-result query: no record reads as not verified, one record
      decides by its flag, and two or more make the query throw. */
  function IsEmailVerified(records: seq<EmailVerification>, email: string): (r: Result<bool, AuthError>)
    ensures r.Err? <==> SeveralRecordsFor(records, email)
    ensures r.Err? ==> r.error == NonUniqueResult
    ensures r.Ok? ==> (r.value <==> VerifiedRecordFor(records, email))
  {
    var row :- OnlyRowFor(records, email, |records|);
    Ok(row.Some? && records[row.value].isVerified)
  }

  /** The single row among the first `n` records that carries `email`, `None` when there is
      none, and an error when there are several. */
  function OnlyRowFor(records: seq<EmailVerification>, email: string, n: nat)
    : (r: Result<Option<nat>, AuthError>)
    requires n <= |records|
    ensures r.Err? ==> r.error == NonUniqueResult
    ensures r.Err? ==>
      exists a, b :: 0 <= a < b < n && records[a].email == email && records[b].email == email
    ensures r.Ok? && r.value.None? ==> forall j :: 0 <= j < n ==> records[j].email != email
    ensures r.Ok? && r.value.Some? ==>
      && r.value.value < n && records[r.value.value].email == email
      && forall j :: 0 <= j < n && j != r.value.value ==> records[j].email != email
  {
    if n == 0 then Ok(None)
    else
      var before :- OnlyRowFor(records, email, n - 1);
      if records[n - 1].email != email then Ok(before)
      else if before.Some? then Err(NonUniqueResult)
      else Ok(Some(n - 1))
  }

  /** A second code requested before the first expires leaves two records for the address. */
  lemma ResendKeepsBothRecords(records: seq<EmailVerification>, email: string, first: string,
                               second: string, sentAt: Time, resentAt: Time)
    requires sentAt <= resentAt <= sentAt + VerificationLifetime
    ensures SeveralRecordsFor(SendVerificationEmail(SendVerificationEmail(records, email, first,
                                                                          sentAt),
                                                    email, second, resentAt), email)
  {
    var once := SendVerificationEmail(records, email, first, sentAt);
    var twice := SendVerificationEmail(once, email, second, resentAt);
    var k := |once| - 1;
    assert NotExpiredAt(once[k], resentAt);
    assert once[k] in twice[..|twice| - 1];
    var a :| 0 <= a < |twice| - 1 && twice[a] == once[k];
    assert twice[a].email == email && twice[|twice| - 1].email == email;
  }

  /** Asking for a code a second time before the first one expires leaves two records for
      the address, and from then on sign-up with that address fails on the verification
      query, whether or not either code was verified. */
  lemma ResentCodeBlocksSignup(records: seq<EmailVerification>, users: seq<User>,
                               request: SignupRequest, first: string, second: string,
                               sentAt: Time, resentAt: Time, code: string, now: Time,
                               encodedPassword: string, newId: nat)
    requires sentAt <= resentAt <= sentAt + VerificationLifetime
    requires !EmailInUse(users, request.email) && !UsernameInUse(users, request.username)
    ensures var twice := SendVerificationEmail(SendVerificationEmail(records, request.email,
                                                                     first, sentAt),
                                               request.email, second, resentAt);
      var v := VerifyEmail(twice, users, request.email, code, now);
      Signup(v.users, v.records, request, encodedPassword, newId) == Err(NonUniqueResult)
  {
    var twice := SendVerificationEmail(SendVerificationEmail(records, request.email, first, sentAt),
                                       request.email, second, resentAt);
    ResendKeepsBothRecords(records, request.email, first, second, sentAt, resentAt);
    VerifyKeepsKeys(twice, users, request, code, now);
  }

  /** Verifying a code changes no address, in either table, and no user name. */
  lemma VerifyKeepsKeys(records: seq<EmailVerification>, users: seq<User>, request: SignupRequest,
                        code: string, now: Time)
    ensures var v := VerifyEmail(records, users, request.email, code, now);
      && (SeveralRecordsFor(records, request.email) ==> SeveralRecordsFor(v.records, request.email))
      && (EmailInUse(v.users, request.email) ==> EmailInUse(users, request.email))
      && (UsernameInUse(v.users, request.username) ==> UsernameInUse(users, request.username))
  {
    var v := VerifyEmail(records, users, request.email, code, now);
    if SeveralRecordsFor(records, request.email) {
      var a, b :| 0 <= a < b < |records| && records[a].email == request.email &&
                  records[b].email == request.email;
      assert v.records[a].email == request.email && v.records[b].email == request.email;
    }
    if EmailInUse(v.users, request.email) {
      var i :| 0 <= i < |v.users| && v.users[i].email == request.email;
      assert users[i].email == request.email;
    }
    if UsernameInUse(v.users, request.username) {
      var i :| 0 <= i < |v.users| && v.users[i].username == request.username;
      assert users[i].username == request.username;
    }
  }

  /** The sign-up form. */
  datatype SignupRequest = SignupRequest(username: string, password: string, email: string, nickname: string)

  predicate EmailInUse(users: seq<User>, email: string) {
    exists i :: 0 <= i < |users| && users[i].email == email
  }

  predicate UsernameInUse(users: seq<User>, username: string) {
    exists i :: 0 <= i < |users| && users[i].username == username
  }

  /** `signup`: refuses a taken e-mail, then a taken user name, then an unverified address,
      and otherwise appends a verified local user with role USER. `encodedPassword` is the
      encoder's output for `request.password`; `newId` the generated key. */
  function Signup(users: seq<User>, records: seq<EmailVerification>, request: SignupRequest,
                  encodedPassword: string, newId: nat): (r: Result<(User, seq<User>), AuthError>)
    ensures EmailInUse(users, request.email) ==> r == Err(EmailTaken)
    ensures !EmailInUse(users, request.email) && UsernameInUse(users, request.username) ==>
      r == Err(UsernameTaken)
    ensures (!EmailInUse(users, request.email) && !UsernameInUse(users, request.username) &&
             SeveralRecordsFor(records, request.email)) ==> r == Err(NonUniqueResult)
    ensures (!EmailInUse(users, request.email) && !UsernameInUse(users, request.username) &&
             !SeveralRecordsFor(records, request.email) &&
             !VerifiedRecordFor(records, request.email)) ==> r == Err(EmailNotVerified)
    ensures r.Ok? <==>
      && !EmailInUse(users, request.email) && !UsernameInUse(users, request.username)
      && !SeveralRecordsFor(records, request.email) && VerifiedRecordFor(records, request.email)
    ensures r.Ok? ==>
      var (u, after) := r.value;
      && u == User(newId, request.username, encodedPassword, request.email, request.nickname,
                   USER, LOCAL, None, true)
      && after == users + [u]
  {
    if EmailInUse(users, request.email) then Err(EmailTaken)
    else if UsernameInUse(users, request.username) then Err(UsernameTaken)
    else
      var verified :- IsEmailVerified(records, request.email);
      if !verified then Err(EmailNotVerified)
      else
        var u := User(newId, request.username, encodedPassword, request.email, request.nickname,
                      USER, LOCAL, None, true);
        Ok((u, users + [u]))
  }

  /** The unique keys of the user table. */
  predicate UniqueUsers(users: seq<User>) {
    forall a, b :: 0 <= a < b < |users| ==>
      users[a].email != users[b].email && users[a].username != users[b].username
  }

  /** A successful sign-up keeps e-mails and user names unique. */
  lemma SignupKeepsUnique(users: seq<User>, records: seq<EmailVerification>, request: SignupRequest,
                          encodedPassword: string, newId: nat)
    requires UniqueUsers(users)
    requires Signup(users, records, request, encodedPassword, newId).Ok?
    ensures UniqueUsers(Signup(users, records, request, encodedPassword, newId).value.1)
  {
    var after := Signup(users, records, request, encodedPassword, newId).value.1;
    assert forall a :: 0 <= a < |users| ==> after[a] == users[a];
  }

  /** `processSocialLogin`: the first user with the address is returned unchanged;
      otherwise a user named after the address is created with the provider's data. The
      insert fails when that name is already some user's user name. */
  function ProcessSocialLogin(users: seq<User>, email: string, name: string, providerId: string,
                              provider: AuthProvider, encodedPassword: string, newId: nat)
    : (r: Result<(User, seq<User>), AuthError>)
    ensures EmailInUse(users, email) ==>
      r.Ok? && r.value.1 == users &&
      exists i :: 0 <= i < |users| && users[i] == r.value.0 && users[i].email == email &&
        forall j :: 0 <= j < i ==> users[j].email != email
    ensures !EmailInUse(users, email) && UsernameInUse(users, email) ==> r == Err(DuplicateUsername)
    ensures !EmailInUse(users, email) && !UsernameInUse(users, email) ==>
      var u := User(newId, email, encodedPassword, email, name, USER, provider, Some(providerId), true);
      r == Ok((u, users + [u]))
  {
    match FirstIndex(users, (u: User) => u.email == email)
    case Some(i) => Ok((users[i], users))
    case None =>
      if UsernameInUse(users, email) then Err(DuplicateUsername)
      else
        var u := User(newId, email, encodedPassword, email, name, USER, provider, Some(providerId), true);
        Ok((u, users + [u]))
  }

  /** Social login keeps the table's unique keys, and a second login with the same address
      finds the user the first one created. */
  lemma SocialLoginFacts(users: seq<User>, email: string, name: string, providerId: string,
                         provider: AuthProvider, encodedPassword: string, newId: nat,
                         name2: string, providerId2: string, provider2: AuthProvider,
                         encodedPassword2: string, newId2: nat)
    requires UniqueUsers(users)
    requires ProcessSocialLogin(users, email, name, providerId, provider, encodedPassword, newId).Ok?
    ensures var (u, after) := ProcessSocialLogin(users, email, name, providerId, provider, encodedPassword, newId).value;
      && UniqueUsers(after)
      && ProcessSocialLogin(after, email, name2, providerId2, provider2, encodedPassword2, newId2) == Ok((u, after))
  {
    var (u, after) := ProcessSocialLogin(users, email, name, providerId, provider, encodedPassword, newId).value;
    if !EmailInUse(users, email) {
      assert forall a :: 0 <= a < |users| ==> after[a] == users[a];
      assert after[|users|] == u;
      assert EmailInUse(after, email);
    } else {
      var i :| 0 <= i < |users| && users[i] == u && users[i].email == email &&
        forall j :: 0 <= j < i ==> users[j].email != email;
    }
  }

  /** Verifying an address changes nothing but `isEmailVerified`, so the unique keys
      survive. */
  lemma VerifyKeepsUnique(records: seq<EmailVerification>, users: seq<User>, email: string,
                          code: string, now: Time)
    requires UniqueUsers(users)
    ensures UniqueUsers(VerifyEmail(records, users, email, code, now).users)
  {
  }
}

=== FILE: create_goal.dfy ===
/** The goal creation form: accumulating validation, the submit handler that appends a new
    goal to the stored collection, and the input handler that clears a field's error. */
module CreateGoal {
  import opened Wrappers
  import opened Text
  import opened GoalStore

  datatype Field = Title | Description | TargetDate | Category | PriorityField

  datatype FormData = FormData(
    title: string,
    description: string,
    targetDate: string,
    category: string,
    priority: Priority)

  /** The form as the page first renders it: everything empty, priority medium. */
  const InitialForm := FormData("", "", "", "", Medium)

  /** The messages the form shows under a field; `Cleared` is the empty string an edit
      leaves in place of a message. */
  datatype ErrorMessage =
    | TitleRequired | DescriptionRequired | TargetDateRequired | TargetDateInPast
    | CategoryRequired | Cleared

  /** The text each message displays. */
  function MessageText(m: ErrorMessage): string {
    match m
    case TitleRequired => "목표 제목을 입력해주세요"
    case DescriptionRequired => "목표 설명을 입력해주세요"
    case TargetDateRequired => "목표 달성 날짜를 선택해주세요"
    case TargetDateInPast => "목표 날짜는 오늘 이후로 설정해주세요"
    case CategoryRequired => "카테고리를 선택해주세요"
    case Cleared => ""
  }

  /** The error object: a message per field name. */
  type Errors = map<Field, ErrorMessage>

  /** `!s.trim()`. */
  predicate Blank(s: string) {
    Trim(s) == []
  }

  /** The date check: `new Date(targetDate) < new Date()`. `targetInstant` is what
      `new Date(targetDate)` denotes (`None` for an invalid date, which compares false). */
  predicate InPast(targetInstant: Option<int>, now: int) {
    targetInstant.Some? && targetInstant.value < now
  }

  /** Whether field `f` fails its own check, judged field by field. */
  predicate FieldFails(f: Field, form: FormData, targetInstant: Option<int>, now: int) {
    match f
    case Title => Blank(form.title)
    case Description => Blank(form.description)
    case TargetDate => form.targetDate == [] || InPast(targetInstant, now)
    case Category => form.category == []
    case PriorityField => false
  }

  /** One `if (...) newErrors.field = message` step of the validation. */
  function Record(e: Errors, fails: bool, f: Field, message: ErrorMessage): (r: Errors)
    ensures forall g :: g in r <==> g in e || (fails && g == f)
    ensures forall g :: g in r ==> r[g] == if fails && g == f then message else e[g]
  {
    if fails then e[f := message] else e
  }

  /** `validateForm`: every check runs and each failing field contributes its message. */
  function ValidateForm(form: FormData, targetInstant: Option<int>, now: int): (errors: Errors)
    ensures Title in errors <==> Blank(form.title)
    ensures Description in errors <==> Blank(form.description)
    ensures TargetDate in errors <==> FieldFails(TargetDate, form, targetInstant, now)
    ensures Category in errors <==> form.category == []
    ensures PriorityField !in errors
    ensures Title in errors ==> errors[Title] == TitleRequired
    ensures Description in errors ==> errors[Description] == DescriptionRequired
    ensures TargetDate in errors ==>
      errors[TargetDate] == (if form.targetDate == [] then TargetDateRequired else TargetDateInPast)
    ensures Category in errors ==> errors[Category] == CategoryRequired
  {
    var e1 := Record(map[], Blank(form.title), Title, TitleRequired);
    var e2 := Record(e1, Blank(form.description), Description, DescriptionRequired);
    var e3 := Record(e2, FieldFails(TargetDate, form, targetInstant, now), TargetDate,
                     if form.targetDate == [] then TargetDateRequired else TargetDateInPast);
    Record(e3, form.category == [], Category, CategoryRequired)
  }

  /** The error object holds exactly the fields that fail their own check. */
  lemma ErrorsAreFailingFields(form: FormData, targetInstant: Option<int>, now: int)
    ensures forall f :: f in ValidateForm(form, targetInstant, now) <==>
      FieldFails(f, form, targetInstant, now)
  {
    var errors := ValidateForm(form, targetInstant, now);
    forall f ensures f in errors <==> FieldFails(f, form, targetInstant, now) {
      if f.Title? {
      } else if f.Description? {
      } else if f.TargetDate? {
      } else if f.Category? {
      }
    }
  }

  /** `Object.keys(newErrors).length === 0`. */
  predicate IsValid(form: FormData, targetInstant: Option<int>, now: int) {
    |ValidateForm(form, targetInstant, now)| == 0
  }

  /** The form is valid exactly when no field fails its check; a blank title or description
      alone is enough to reject it. */
  lemma ValidIffNoFieldFails(form: FormData, targetInstant: Option<int>, now: int)
    ensures IsValid(form, targetInstant, now) <==>
      forall f: Field :: !FieldFails(f, form, targetInstant, now)
    ensures (forall i :: 0 <= i < |form.title| ==> IsJsWhitespace(form.title[i])) ==>
      !IsValid(form, targetInstant, now)
    ensures (forall i :: 0 <= i < |form.description| ==> IsJsWhitespace(form.description[i])) ==>
      !IsValid(form, targetInstant, now)
  {
    var errors := ValidateForm(form, targetInstant, now);
    ErrorsAreFailingFields(form, targetInstant, now);
    if !IsValid(form, targetInstant, now) {
      var f :| f in errors;
    } else {
      assert errors == map[];
    }
    TrimEmptyIff(form.title);
    TrimEmptyIff(form.description);
    if Blank(form.title) {
      assert Title in errors;
    }
    if Blank(form.description) {
      assert Description in errors;
    }
  }

  /** An empty title together with a past date yields both errors at once: validation does
      not stop at the first failure. */
  lemma EmptyTitleAndPastDateGiveTwoErrors(form: FormData, target: int, now: int)
    requires form.title == [] && form.targetDate != [] && target < now
    ensures var errors := ValidateForm(form, Some(target), now);
      Title in errors && errors[Title] == TitleRequired &&
      TargetDate in errors && errors[TargetDate] == TargetDateInPast
  {
  }

  /** What submitting the form leads to. */
  datatype Submission =
    | Rejected(errors: Errors)              // validation failed, nothing written
    | Created(goal: Goal, goals: seq<Goal>) // the new goal and the collection written back
    | Threw                                 // `JSON.parse` threw after validation passed

  /** The storage after a submission: only a successful creation writes. */
  function StorageAfter(before: Stored, s: Submission): Stored {
    if s.Created? then Saved(s.goals) else before
  }

  /** `handleSubmit`. `id` is `Date.now()` and `createdAt` is `new Date().toISOString()`,
      both read from the clock, so they are inputs; nothing checks that `id` is fresh. */
  function HandleSubmit(stored: Stored, form: FormData, targetInstant: Option<int>, now: int,
                        id: int, createdAt: string): (s: Submission)
    ensures s.Rejected? <==> !IsValid(form, targetInstant, now)
    ensures s.Rejected? ==> s.errors == ValidateForm(form, targetInstant, now) && |s.errors| > 0
    ensures s.Threw? <==> IsValid(form, targetInstant, now) && stored.Unparseable?
    ensures s.Created? ==>
      && s.goal == Goal(id, form.title, form.description, form.targetDate, 0,
                        form.category, createdAt, form.priority)
      && |s.goals| > 0 && s.goals[|s.goals| - 1] == s.goal
      && Load(stored) == Ok(s.goals[..|s.goals| - 1])
  {
    var errors := ValidateForm(form, targetInstant, now);
    if |errors| != 0 then Rejected(errors)
    else
      var newGoal := Goal(id, form.title, form.description, form.targetDate, 0,
                          form.category, createdAt, form.priority);
      match Load(stored)
      case Err(_) => Threw
      case Ok(existing) =>
        assert (existing + [newGoal])[..|existing|] == existing;
        Created(newGoal, existing + [newGoal])
  }

  /** A rejected or failed submission leaves the storage as it was; a successful one keeps
      every earlier goal, in order, and adds one goal with progress 0 at the end. It keeps the
      range invariant, and id uniqueness when the clock gave an unused id. */
  lemma SubmitEffect(stored: Stored, form: FormData, targetInstant: Option<int>, now: int,
                     id: int, createdAt: string)
    ensures var s := HandleSubmit(stored, form, targetInstant, now, id, createdAt);
      && (!s.Created? ==> StorageAfter(stored, s) == stored)
      && (s.Created? ==> stored.Saved? ==> s.goals == stored.goals + [s.goal])
      && (s.Created? ==> stored.Missing? ==> s.goals == [s.goal])
      && (s.Created? ==> s.goal.progress == 0)
      && (s.Created? && stored.Saved? && AllInRange(stored.goals) ==> AllInRange(s.goals))
      && (s.Created? && stored.Saved? && UniqueIds(stored.goals) && !HasId(stored.goals, id) ==>
            UniqueIds(s.goals))
  {
    var s := HandleSubmit(stored, form, targetInstant, now, id, createdAt);
    if s.Created? && stored.Saved? {
      assert s.goals == s.goals[..|s.goals| - 1] + [s.goal];
    }
  }

  /** One change event of the form: the input's `name` and new value. */
  datatype InputChange =
    | SetTitle(title: string)
    | SetDescription(description: string)
    | SetTargetDate(targetDate: string)
    | SetCategory(category: string)
    | SetPriority(priority: Priority)

  function ChangedField(c: InputChange): Field {
    match c
    case SetTitle(_) => Title
    case SetDescription(_) => Description
    case SetTargetDate(_) => TargetDate
    case SetCategory(_) => Category
    case SetPriority(_) => PriorityField
  }

  function ApplyChange(form: FormData, c: InputChange): FormData {
    match c
    case SetTitle(v) => form.(title := v)
    case SetDescription(v) => form.(description := v)
    case SetTargetDate(v) => form.(targetDate := v)
    case SetCategory(v) => form.(category := v)
    case SetPriority(p) => form.(priority := p)
  }

  /** `handleInputChange`: stores the new value and, when the changed field shows an error,
      replaces that message by the empty string. The key stays; no other error changes. */
  function HandleInputChange(form: FormData, errors: Errors, c: InputChange): (r: (FormData, Errors))
    ensures r.0 == ApplyChange(form, c)
    ensures r.1.Keys == errors.Keys
    ensures ChangedField(c) in errors ==> r.1[ChangedField(c)] == Cleared
    ensures forall f :: f in errors && f != ChangedField(c) ==> r.1[f] == errors[f]
  {
    var f := ChangedField(c);
    var cleared := if f in errors && errors[f] != Cleared then errors[f := Cleared] else errors;
    (ApplyChange(form, c), cleared)
  }

  /** Applies a series of change events in order. */
  function ApplyChanges(form: FormData, cs: seq<InputChange>): FormData
    decreases |cs|
  {
    if cs == [] then form else ApplyChanges(ApplyChange(form, cs[0]), cs[1..])
  }

  /** A form whose priority select was never touched submits priority medium. */
  lemma {:induction false} PriorityDefaultsToMedium(cs: seq<InputChange>)
    requires forall i :: 0 <= i < |cs| ==> !cs[i].SetPriority?
    ensures ApplyChanges(InitialForm, cs).priority == Medium
  {
    PriorityKept(InitialForm, cs);
  }

  lemma {:induction false} PriorityKept(form: FormData, cs: seq<InputChange>)
    requires forall i :: 0 <= i < |cs| ==> !cs[i].SetPriority?
    ensures ApplyChanges(form, cs).priority == form.priority
    decreases |cs|
  {
    if cs != [] {
      PriorityKept(ApplyChange(form, cs[0]), cs[1..]);
    }
  }
}

=== FILE: entities.dfy ===
/** The persisted backend entities. Timestamps (`LocalDateTime`) are integer seconds,
    money (`BigDecimal`) and coordinates/ratings (`Double`) are integers, and every
    repository is a sequence in the order the database returns rows. */
module Entities {
  import opened Wrappers

  /** Seconds on the server clock. */
  type Time = int

  const Minute: int := 60
  const Day: int := 24 * 60 * Minute

  datatype Role = USER | ADMIN

  datatype AuthProvider = LOCAL | GOOGLE | KAKAO | NAVER

  /** `users` row. `password` holds the encoder's output, which this model takes as given. */
  datatype User = User(
    id: nat,
    username: string,
    password: string,
    email: string,
    nickname: string,
    role: Role,
    authProvider: AuthProvider,
    providerId: Option<string>,
    isEmailVerified: bool)

  /** `email_verifications` row; `createdAt` and `expiresAt` are filled when it is saved. */
  datatype EmailVerification = EmailVerification(
    email: string,
    verificationCode: string,
    isVerified: bool,
    expiresAt: Time,
    verifiedAt: Option<Time>,
    createdAt: Time)

  /** A verification code is valid for ten minutes after it is saved. */
  const VerificationLifetime: int := 10 * Minute

  datatype TicketType = DAILY | MONTHLY | YEARLY | PT

  /** `tickets` row; the gym is referenced by id. */
  datatype Ticket = Ticket(
    id: nat,
    ticketType: TicketType,
    name: string,
    description: string,
    price: int,
    validDays: int,
    qrCode: string,
    gymId: nat,
    isActive: bool)

  datatype PaymentMethod = CARD | BANK_TRANSFER | CASH

  datatype PaymentStatus = PENDING | COMPLETED | CANCELLED | FAILED

  /** `purchases` row; user and ticket are referenced by id. */
  datatype Purchase = Purchase(
    id: nat,
    userId: nat,
    ticketId: nat,
    amount: int,
    paymentMethod: PaymentMethod,
    status: PaymentStatus,
    purchaseDate: Time,
    expiryDate: Time,
    qrCode: string,
    isUsed: bool,
    usedAt: Option<Time>)

  /** `gyms` row. `facilities` is the comma-joined facility list. `rating` and
      `reviewCount` are nullable columns. */
  datatype Gym = Gym(
    id: nat,
    name: string,
    description: string,
    address: string,
    phoneNumber: string,
    businessHours: string,
    latitude: int,
    longitude: int,
    monthlyFee: int,
    dailyFee: int,
    ptPrice: int,
    facilities: string,
    imageUrl: string,
    rating: Option<int>,
    reviewCount: Option<int>)
}

=== FILE: goal_detail.dfy ===
/** The goal detail page: lookup by the route id, progress buttons, edit-and-save, delete
    after confirmation, and the completion and overdue notices. Each mutation re-reads the
    stored collection, replaces or removes the page's goal by id, and writes it back. */
module GoalDetail {
  import opened Wrappers
  import opened Text
  import opened Seqs
  import opened GoalStore

  /** The page's state: the goal it shows (`null` until found) and the storage. */
  datatype Page = Page(shown: Option<Goal>, stored: Stored)

  /** `goals.find(g => g.id === parseInt(routeId))`: the first goal carrying the parsed id;
      a route id that does not parse matches nothing. */
  function FindGoal(goals: seq<Goal>, routeId: string): (r: Option<Goal>)
    ensures r.Some? ==> ParseInt(routeId) == Some(r.value.id)
    ensures r.Some? ==> exists i :: FirstIndexOf(goals, r.value.id, i) && goals[i] == r.value
    ensures r.None? <==> ParseInt(routeId).None? || !HasId(goals, ParseInt(routeId).value)
  {
    match ParseInt(routeId)
    case None => None
    case Some(id) => FirstWithId(goals, id)
  }

  /** `i` is the position of the first goal carrying `id`. */
  predicate FirstIndexOf(goals: seq<Goal>, id: int, i: int) {
    0 <= i < |goals| && goals[i].id == id && forall j :: 0 <= j < i ==> goals[j].id != id
  }

  function FirstWithId(goals: seq<Goal>, id: int): (r: Option<Goal>)
    ensures r.Some? ==> r.value.id == id
    ensures r.Some? ==> exists i :: FirstIndexOf(goals, id, i) && goals[i] == r.value
    ensures r.None? <==> !HasId(goals, id)
  {
    if goals == [] then None
    else if goals[0].id == id then Some(goals[0])
    else
      var r := FirstWithId(goals[1..], id);
      assert r.Some? ==> exists i :: FirstIndexOf(goals, id, i) && goals[i] == r.value by {
        if r.Some? {
          var i :| FirstIndexOf(goals[1..], id, i) && goals[1..][i] == r.value;
          assert FirstIndexOf(goals, id, i + 1);
        }
      }
      r
  }

  /** Opening a goal through the link the list page renders (`/goals/<id>`) finds a goal
      with that id whenever one is stored. */
  lemma FindByRenderedId(goals: seq<Goal>, g: Goal)
    requires g in goals
    ensures FindGoal(goals, IntToString(g.id)).Some?
    ensures FindGoal(goals, IntToString(g.id)).value.id == g.id
  {
    ParseIntOfIntToString(g.id);
    var i :| 0 <= i < |goals| && goals[i] == g;
  }

  /** What the page shows after loading: the goal, or the not-found path (`None`), which
      alerts and navigates back to the list. A corrupt store throws. */
  function Open(stored: Stored, routeId: string): (r: Result<Page, LoadError>)
    ensures r.Err? <==> stored.Unparseable?
    ensures r.Ok? ==> r.value.stored == stored
    ensures r.Ok? && stored.Saved? ==> r.value.shown == FindGoal(stored.goals, routeId)
    ensures r.Ok? && stored.Missing? ==> r.value.shown.None?
  {
    var goals :- Load(stored);
    Ok(Page(FindGoal(goals, routeId), stored))
  }

  /** `updateProgress`: the shown goal with clamped progress replaces every stored record
      with its id. It is the page's copy that is written, so edits made elsewhere to that
      record since the page loaded are overwritten. With no goal shown nothing happens. */
  function UpdateProgress(page: Page, newProgress: int): (r: Result<Page, LoadError>)
    ensures page.shown.None? ==> r == Ok(page)
    ensures page.shown.Some? ==> (r.Err? <==> page.stored.Unparseable?)
    ensures page.shown.Some? && r.Ok? ==>
      var updated := page.shown.value.(progress := Clamp(newProgress));
      && r.value.shown == Some(updated)
      && r.value.stored.Saved?
      && r.value.stored.goals == ReplaceById(Load(page.stored).value, updated.id, updated)
  {
    match page.shown
    case None => Ok(page)
    case Some(goal) =>
      var updated := goal.(progress := Clamp(newProgress));
      var goals :- Load(page.stored);
      Ok(Page(Some(updated), Saved(ReplaceById(goals, goal.id, updated))))
  }

  /** A progress button: `updateProgress(goal.progress + delta)` for the steps -10, -5, +5
      and +10, clickable only when `StepEnabled`. */
  function ClickStep(page: Page, delta: int): (r: Result<Page, LoadError>)
    requires delta == -10 || delta == -5 || delta == 5 || delta == 10
    requires page.shown.Some? && StepEnabled(page.shown.value.progress, delta)
    ensures r.Err? <==> page.stored.Unparseable?
    ensures r.Ok? ==>
      var updated := page.shown.value.(progress := Clamp(page.shown.value.progress + delta));
      && r.value.shown == Some(updated)
      && r.value.stored == Saved(ReplaceById(Load(page.stored).value, updated.id, updated))
    ensures r.Ok? && ProgressInRange(page.shown.value) ==>
      && r.value.shown.Some?
      && ProgressInRange(r.value.shown.value)
      && r.value.shown.value.progress != page.shown.value.progress
      && (delta > 0 <==> r.value.shown.value.progress > page.shown.value.progress)
      && (delta > 0 ==> r.value.shown.value.progress - page.shown.value.progress <= delta)
      && (delta < 0 ==> page.shown.value.progress - r.value.shown.value.progress <= -delta)
  {
    var p := page.shown.value.progress;
    if 0 <= p <= 100 then
      EnabledStepMoves(p, delta);
      UpdateProgress(page, p + delta)
    else
      UpdateProgress(page, p + delta)
  }

  /** Progress updates keep the stored range invariant and id uniqueness. */
  lemma UpdateProgressKeepsInvariants(page: Page, newProgress: int)
    requires page.stored.Saved? && page.shown.Some?
    ensures var r := UpdateProgress(page, newProgress);
      && (AllInRange(page.stored.goals) ==> AllInRange(r.value.stored.goals))
      && (UniqueIds(page.stored.goals) ==> UniqueIds(r.value.stored.goals))
  {
    var g := page.shown.value;
    ReplaceByIdKeepsInvariants(page.stored.goals, g.id, g.(progress := Clamp(newProgress)));
  }

  /** The edit form's fields. */
  datatype EditData = EditData(
    title: string,
    description: string,
    targetDate: string,
    category: string,
    priority: Priority)

  /** `{ ...goal, ...editData }`. */
  function Merge(goal: Goal, edit: EditData): (r: Goal)
    ensures r.id == goal.id && r.progress == goal.progress && r.createdAt == goal.createdAt
    ensures r.title == edit.title && r.description == edit.description
    ensures r.targetDate == edit.targetDate && r.category == edit.category
    ensures r.priority == edit.priority
  {
    goal.(title := edit.title, description := edit.description, targetDate := edit.targetDate,
          category := edit.category, priority := edit.priority)
  }

  /** `saveChanges`: writes the merged goal over every stored record with its id. No field
      is validated: a blank title or a past date is saved as given. */
  function SaveChanges(page: Page, edit: EditData): (r: Result<Page, LoadError>)
    ensures page.shown.None? ==> r == Ok(page)
    ensures page.shown.Some? ==> (r.Err? <==> page.stored.Unparseable?)
    ensures page.shown.Some? && r.Ok? ==>
      var merged := Merge(page.shown.value, edit);
      && r.value.shown == Some(merged)
      && r.value.stored == Saved(ReplaceById(Load(page.stored).value, merged.id, merged))
  {
    match page.shown
    case None => Ok(page)
    case Some(goal) =>
      var merged := Merge(goal, edit);
      var goals :- Load(page.stored);
      Ok(Page(Some(merged), Saved(ReplaceById(goals, goal.id, merged))))
  }

  /** Saving changes keeps the stored invariants: progress and ids are never edited. */
  lemma SaveChangesKeepsInvariants(page: Page, edit: EditData)
    requires page.stored.Saved? && page.shown.Some? && ProgressInRange(page.shown.value)
    ensures var r := SaveChanges(page, edit);
      && (AllInRange(page.stored.goals) ==> AllInRange(r.value.stored.goals))
      && (UniqueIds(page.stored.goals) ==> UniqueIds(r.value.stored.goals))
  {
    var g := page.shown.value;
    ReplaceByIdKeepsInvariants(page.stored.goals, g.id, Merge(g, edit));
  }

  /** `deleteGoal`: only a confirmed dialog removes the goal's id from the stored
      collection; the page then navigates away. */
  function DeleteGoal(page: Page, confirmed: bool): (r: Result<Stored, LoadError>)
    ensures page.shown.None? || !confirmed ==> r == Ok(page.stored)
    ensures page.shown.Some? && confirmed ==> (r.Err? <==> page.stored.Unparseable?)
    ensures page.shown.Some? && confirmed && r.Ok? ==>
      r.value.Saved? && !HasId(r.value.goals, page.shown.value.id) &&
      IsSubsequence(r.value.goals, Load(page.stored).value)
    ensures page.shown.Some? && confirmed && r.Ok? ==>
      var before := Load(page.stored).value;
      forall i :: 0 <= i < |before| && before[i].id != page.shown.value.id ==>
        before[i] in r.value.goals
  {
    if page.shown.None? || !confirmed then Ok(page.stored)
    else
      var goals :- Load(page.stored);
      Ok(Saved(RemoveId(goals, page.shown.value.id)))
  }

  /** Deleting from the detail page keeps the store invariants: progress in range and
      unique ids. */
  lemma DeleteGoalKeepsInvariants(page: Page, confirmed: bool)
    requires page.stored.Saved?
    requires DeleteGoal(page, confirmed).Ok?
    ensures var after := DeleteGoal(page, confirmed).value;
      && after.Saved?
      && (AllInRange(page.stored.goals) ==> AllInRange(after.goals))
      && (UniqueIds(page.stored.goals) ==> UniqueIds(after.goals))
  {
    if page.shown.Some? && confirmed {
      RemoveIdKeepsInvariants(page.stored.goals, page.shown.value.id);
    }
  }

  /** The celebration shows exactly at progress 100. */
  predicate ShowsCelebration(goal: Goal) {
    goal.progress == 100
  }

  /** The overdue warning: the target day has passed and the goal is not complete.
      `daysRemaining` is the rounded-up day difference the page computes from the clock. */
  predicate ShowsOverdue(goal: Goal, daysRemaining: int) {
    daysRemaining < 0 && goal.progress < 100
  }

  /** The two notices never show together, and a goal raised to 100 shows the
      celebration and no warning. */
  lemma NoticesExclusive(goal: Goal, daysRemaining: int)
    ensures !(ShowsCelebration(goal) && ShowsOverdue(goal, daysRemaining))
    ensures ShowsCelebration(goal.(progress := Clamp(200)))
    ensures ProgressInRange(goal) && !ShowsCelebration(goal) && daysRemaining < 0 ==>
      ShowsOverdue(goal, daysRemaining)
  {
  }
}

=== FILE: goal_list.dfy ===
/** The goal list page: the status filter and search over the collection loaded at mount,
    the per-status badge counts, delete-after-confirm, progress updates and the progress
    colour. Every mutation writes the page's whole in-memory collection back. */
module GoalList {
  import opened Wrappers
  import opened Text
  import opened Seqs
  import opened GoalStore

  /** The four filter buttons. */
  datatype StatusFilter = All | CompletedOnly | InProgressOnly | NotStartedOnly

  predicate MatchesFilter(g: Goal, f: StatusFilter) {
    match f
    case All => true
    case CompletedOnly => IsCompleted(g)
    case InProgressOnly => IsInProgress(g)
    case NotStartedOnly => IsNotStarted(g)
  }

  /** Case-insensitive substring search on title or description. */
  predicate MatchesSearch(g: Goal, term: string) {
    ContainsIgnoringCase(g.title, term) || ContainsIgnoringCase(g.description, term)
  }

  /** The callback given to `goals.filter`. */
  function ListPredicate(f: StatusFilter, term: string): Goal -> bool {
    (g: Goal) => MatchesFilter(g, f) && MatchesSearch(g, term)
  }

  /** `filteredGoals`: exactly the goals passing both the status filter and the search,
      in stored order. */
  function FilteredGoals(goals: seq<Goal>, f: StatusFilter, term: string): (r: seq<Goal>)
    ensures forall i :: 0 <= i < |r| ==>
      r[i] in goals && MatchesFilter(r[i], f) && MatchesSearch(r[i], term)
    ensures forall i :: 0 <= i < |goals| && MatchesFilter(goals[i], f) && MatchesSearch(goals[i], term) ==>
      goals[i] in r
    ensures IsSubsequence(r, goals)
  {
    FilterIsSubsequence(goals, ListPredicate(f, term));
    Filter(goals, ListPredicate(f, term))
  }

  /** With filter "all" and an empty search box the whole collection is listed, in order. */
  lemma ListAllUnfiltered(goals: seq<Goal>)
    ensures FilteredGoals(goals, All, "") == goals
  {
    forall i | 0 <= i < |goals|
      ensures ListPredicate(All, "")(goals[i])
    {
      ContainsEmpty(Lower(goals[i].title));
    }
    FilterKeepsAll(goals, ListPredicate(All, ""));
  }

  /** The badge numbers: the total and the three buckets, over the unfiltered collection. */
  datatype Counts = Counts(total: nat, inProgress: nat, completed: nat, notStarted: nat)

  /** The badges: "all" shows the length of the collection, and each status button the
      number of goals its list shows while the search box is empty. */
  function StatusCounts(goals: seq<Goal>): (c: Counts)
    ensures c.total == |goals|
    ensures c.inProgress == |FilteredGoals(goals, InProgressOnly, "")|
    ensures c.completed == |FilteredGoals(goals, CompletedOnly, "")|
    ensures c.notStarted == |FilteredGoals(goals, NotStartedOnly, "")|
    ensures AllInRange(goals) ==> c.inProgress + c.completed + c.notStarted == c.total
  {
    BucketCountsSum(goals);
    BadgeMatchesList(goals, InProgressOnly, IsInProgress);
    BadgeMatchesList(goals, CompletedOnly, IsCompleted);
    BadgeMatchesList(goals, NotStartedOnly, IsNotStarted);
    Counts(|goals|, |Filter(goals, IsInProgress)|, |Filter(goals, IsCompleted)|,
           |Filter(goals, IsNotStarted)|)
  }

  /** With an empty search box a status button lists exactly the goals its badge counts. */
  lemma BadgeMatchesList(goals: seq<Goal>, f: StatusFilter, bucket: Goal -> bool)
    requires forall g :: bucket(g) == MatchesFilter(g, f)
    ensures FilteredGoals(goals, f, "") == Filter(goals, bucket)
  {
    forall i | 0 <= i < |goals|
      ensures ListPredicate(f, "")(goals[i]) == bucket(goals[i])
    {
      ContainsEmpty(Lower(goals[i].title));
    }
    FilterCongruent(goals, ListPredicate(f, ""), bucket);
  }

  lemma BucketCountsSum(goals: seq<Goal>)
    ensures AllInRange(goals) ==>
      |Filter(goals, IsInProgress)| + |Filter(goals, IsCompleted)| + |Filter(goals, IsNotStarted)| == |goals|
  {
    if AllInRange(goals) {
      FilterPartition3(goals, IsInProgress, IsCompleted, IsNotStarted);
    }
  }

  /** For an in-range goal exactly one status bucket applies. */
  lemma BucketsPartition(g: Goal)
    requires ProgressInRange(g)
    ensures MatchesFilter(g, CompletedOnly) || MatchesFilter(g, InProgressOnly) || MatchesFilter(g, NotStartedOnly)
    ensures !(MatchesFilter(g, CompletedOnly) && MatchesFilter(g, InProgressOnly))
    ensures !(MatchesFilter(g, CompletedOnly) && MatchesFilter(g, NotStartedOnly))
    ensures !(MatchesFilter(g, InProgressOnly) && MatchesFilter(g, NotStartedOnly))
  {
  }

  /** `deleteGoal`: when confirmed, every goal with the id goes and the rest keep their
      order; when not confirmed, nothing changes. */
  function DeleteGoal(goals: seq<Goal>, id: int, confirmed: bool): (r: seq<Goal>)
    ensures !confirmed ==> r == goals
    ensures confirmed ==> !HasId(r, id)
    ensures forall i :: 0 <= i < |goals| && goals[i].id != id ==> goals[i] in r
    ensures IsSubsequence(r, goals)
  {
    if confirmed then RemoveId(goals, id)
    else
      FilterIsSubsequence(goals, (g: Goal) => true);
      FilterKeepsAll(goals, (g: Goal) => true);
      goals
  }

  /** Deleting an id that is not there changes nothing; after a confirmed delete the
      unfiltered list no longer shows the id. */
  lemma DeleteFacts(goals: seq<Goal>, id: int, confirmed: bool)
    ensures !HasId(goals, id) ==> DeleteGoal(goals, id, confirmed) == goals
    ensures confirmed ==> !HasId(FilteredGoals(DeleteGoal(goals, id, confirmed), All, ""), id)
  {
    if !HasId(goals, id) && confirmed {
      RemoveAbsentId(goals, id);
    }
    ListAllUnfiltered(DeleteGoal(goals, id, confirmed));
  }

  /** `updateProgress` of the list page: goals with the id get the clamped progress and
      keep every other field; all other goals are untouched. */
  function UpdateProgress(goals: seq<Goal>, id: int, newProgress: int): (r: seq<Goal>)
    ensures |r| == |goals|
    ensures forall i :: 0 <= i < |goals| ==> r[i].id == goals[i].id
    ensures forall i :: 0 <= i < |goals| && goals[i].id != id ==> r[i] == goals[i]
    ensures forall i :: 0 <= i < |goals| && goals[i].id == id ==>
      r[i] == goals[i].(progress := Clamp(newProgress))
  {
    seq(|goals|, i requires 0 <= i < |goals| =>
      if goals[i].id == id then goals[i].(progress := Clamp(newProgress)) else goals[i])
  }

  /** Progress updates keep both store invariants whatever the requested value, and the
      last of two updates to the same id wins. */
  lemma UpdateProgressFacts(goals: seq<Goal>, id: int, p: int, q: int)
    ensures AllInRange(goals) ==> AllInRange(UpdateProgress(goals, id, p))
    ensures UniqueIds(goals) ==> UniqueIds(UpdateProgress(goals, id, p))
    ensures UpdateProgress(UpdateProgress(goals, id, p), id, q) == UpdateProgress(goals, id, q)
  {
  }

  /** The progress colours. */
  const Green := "#2ed573"
  const Orange := "#ffa502"
  const RedOrange := "#ff6348"
  const Grey := "#747d8c"

  /** `getProgressColor`: 100 is green, from 70 orange, from 30 red-orange, below grey. */
  function ProgressColor(p: int): (c: string)
    ensures c == Green <==> p == 100
    ensures c == Orange <==> 70 <= p && p != 100
    ensures c == RedOrange <==> 30 <= p < 70
    ensures c == Grey <==> p < 30
  {
    if p == 100 then Green
    else if p >= 70 then Orange
    else if p >= 30 then RedOrange
    else Grey
  }

  /** On an in-range goal the colour is green exactly in the completed bucket, and the
      colour never gets "colder" as progress grows. */
  lemma ProgressColorFacts(p: int, q: int)
    ensures ProgressColor(p) == Green <==> p == 100
    ensures 0 <= p <= q <= 100 ==> ColorRank(ProgressColor(p)) <= ColorRank(ProgressColor(q))
  {
  }

  function ColorRank(c: string): int {
    if c == Green then 3 else if c == Orange then 2 else if c == RedOrange then 1 else 0
  }
}

=== FILE: goal_store.dfy ===
/** The goal record and the browser-local collection that the goal pages share.
    The collection is the JSON array kept under the storage key "goals"; here it is a
    `seq<Goal>` held by a `Stored` value that also covers a missing key and an
    unparseable text. */
module GoalStore {
  import opened Wrappers
  import opened Seqs

  datatype Priority = Low | Medium | High

  /** One goal as the pages write it. `targetDate` and `createdAt` stay the strings the
      pages store (an ISO date and an ISO timestamp). */
  datatype Goal = Goal(
    id: int,
    title: string,
    description: string,
    targetDate: string,
    progress: int,
    category: string,
    createdAt: string,
    priority: Priority)

  /** What `localStorage.getItem('goals')` yields: nothing (null, or the empty string, which
      `|| '[]'` also replaces), a well-formed array, or text `JSON.parse` rejects. */
  datatype Stored = Missing | Saved(goals: seq<Goal>) | Unparseable

  /** `JSON.parse` threw. */
  datatype LoadError = CorruptStorage

  /** `JSON.parse(localStorage.getItem('goals') || '[]')`: a missing key reads as the
      empty collection, a corrupt value throws. */
  function Load(stored: Stored): (r: Result<seq<Goal>, LoadError>)
    ensures r.Err? <==> stored.Unparseable?
    ensures stored.Missing? ==> r == Ok([])
    ensures stored.Saved? ==> r == Ok(stored.goals)
  {
    match stored
    case Missing => Ok([])
    case Saved(goals) => Ok(goals)
    case Unparseable => Err(CorruptStorage)
  }

  /** `Math.max(0, Math.min(100, p))`. */
  function Clamp(p: int): (r: int)
    ensures 0 <= r <= 100
    ensures 0 <= p <= 100 ==> r == p
    ensures p < 0 ==> r == 0
    ensures p > 100 ==> r == 100
  {
    if p < 0 then 0 else if p > 100 then 100 else p
  }

  predicate ProgressInRange(g: Goal) {
    0 <= g.progress <= 100
  }

  /** The store invariant every page maintains: every progress lies in [0,100]. */
  predicate AllInRange(goals: seq<Goal>) {
    forall i :: 0 <= i < |goals| ==> ProgressInRange(goals[i])
  }

  /** No two goals share an id. The pages never check this; ids come from the clock. */
  predicate UniqueIds(goals: seq<Goal>) {
    forall i, j :: 0 <= i < j < |goals| ==> goals[i].id != goals[j].id
  }

  predicate HasId(goals: seq<Goal>, id: int) {
    exists i :: 0 <= i < |goals| && goals[i].id == id
  }

  /** The status buckets the list page derives from progress; nothing is stored for them. */
  predicate IsCompleted(g: Goal) {
    g.progress == 100
  }

  predicate IsInProgress(g: Goal) {
    0 < g.progress < 100
  }

  predicate IsNotStarted(g: Goal) {
    g.progress == 0
  }

  /** Whether a progress button for `delta` is enabled: decrements are disabled at
      `progress <= 0`, increments at `progress >= 100`. */
  predicate StepEnabled(progress: int, delta: int) {
    (delta < 0 ==> progress > 0) && (delta > 0 ==> progress < 100)
  }

  /** An enabled button on an in-range goal always moves its progress strictly in the
      button's direction and keeps it in range. */
  lemma EnabledStepMoves(progress: int, delta: int)
    requires 0 <= progress <= 100
    requires delta != 0 && StepEnabled(progress, delta)
    ensures Clamp(progress + delta) != progress
    ensures delta > 0 ==> progress < Clamp(progress + delta) <= progress + delta
    ensures delta < 0 ==> progress + delta <= Clamp(progress + delta) < progress
  {
  }

  /** Every goal whose id is `id` becomes `updated`; the others are kept, in order. */
  function ReplaceById(goals: seq<Goal>, id: int, updated: Goal): (r: seq<Goal>)
    ensures |r| == |goals|
    ensures forall i :: 0 <= i < |goals| && goals[i].id != id ==> r[i] == goals[i]
    ensures forall i :: 0 <= i < |goals| && goals[i].id == id ==> r[i] == updated
  {
    seq(|goals|, i requires 0 <= i < |goals| => if goals[i].id == id then updated else goals[i])
  }

  /** Replacing records by a record with the same id keeps the ids where they were, so
      uniqueness survives, and so does the range invariant when the new record is in range. */
  lemma ReplaceByIdKeepsInvariants(goals: seq<Goal>, id: int, updated: Goal)
    requires updated.id == id
    ensures UniqueIds(goals) ==> UniqueIds(ReplaceById(goals, id, updated))
    ensures AllInRange(goals) && ProgressInRange(updated) ==> AllInRange(ReplaceById(goals, id, updated))
  {
    var r := ReplaceById(goals, id, updated);
    assert forall i :: 0 <= i < |goals| ==> r[i].id == goals[i].id;
  }

  /** The filter callback `g => g.id !== id`. */
  function NotId(id: int): Goal -> bool {
    (g: Goal) => g.id != id
  }

  /** Removing every goal with `id` keeps the other goals, in order. */
  function RemoveId(goals: seq<Goal>, id: int): (r: seq<Goal>)
    ensures !HasId(r, id)
    ensures forall i :: 0 <= i < |goals| && goals[i].id != id ==> goals[i] in r
    ensures forall i :: 0 <= i < |r| ==> r[i] in goals
    ensures IsSubsequence(r, goals)
  {
    FilterIsSubsequence(goals, NotId(id));
    Filter(goals, NotId(id))
  }

  /** Removing an id nobody has leaves the collection as it was. */
  lemma RemoveAbsentId(goals: seq<Goal>, id: int)
    requires !HasId(goals, id)
    ensures RemoveId(goals, id) == goals
  {
    FilterKeepsAll(goals, NotId(id));
  }

  /** Removal keeps both store invariants. */
  lemma RemoveIdKeepsInvariants(goals: seq<Goal>, id: int)
    ensures AllInRange(goals) ==> AllInRange(RemoveId(goals, id))
    ensures UniqueIds(goals) ==> UniqueIds(RemoveId(goals, id))
  {
    var r := RemoveId(goals, id);
    if UniqueIds(goals) {
      SubsequenceKeepsUnique(r, goals);
    }
  }

  lemma {:induction false} SubsequenceKeepsUnique(r: seq<Goal>, s: seq<Goal>)
    requires IsSubsequence(r, s) && UniqueIds(s)
    ensures UniqueIds(r)
    decreases |s|
  {
    if r != [] && s != [] {
      if r[0] == s[0] {
        SubsequenceKeepsUnique(r[1..], s[1..]);
        SubsequenceMembers(r[1..], s[1..]);
        forall j | 0 < j < |r|
          ensures r[0].id != r[j].id
        {
          assert r[j] == r[1..][j - 1];
          var k :| 0 <= k < |s[1..]| && s[1..][k] == r[j];
          assert s[k + 1] == r[j];
        }
      } else {
        SubsequenceKeepsUnique(r, s[1..]);
      }
    }
  }

  lemma {:induction false} SubsequenceMembers(r: seq<Goal>, s: seq<Goal>)
    requires IsSubsequence(r, s)
    ensures forall i :: 0 <= i < |r| ==> exists k :: 0 <= k < |s| && s[k] == r[i]
    decreases |s|
  {
    if r != [] && s != [] {
      if r[0] == s[0] {
        SubsequenceMembers(r[1..], s[1..]);
        forall i | 0 < i < |r|
          ensures exists k :: 0 <= k < |s| && s[k] == r[i]
        {
          assert r[i] == r[1..][i - 1];
          var k :| 0 <= k < |s[1..]| && s[1..][k] == r[1..][i - 1];
          assert s[k + 1] == r[i];
        }
        assert s[0] == r[0];
      } else {
        SubsequenceMembers(r, s[1..]);
        forall i | 0 <= i < |r|
          ensures exists k :: 0 <= k < |s| && s[k] == r[i]
        {
          var k :| 0 <= k < |s[1..]| && s[1..][k] == r[i];
          assert s[k + 1] == r[i];
        }
      }
    }
  }
}

=== FILE: gym_list.dfy ===
/** The gym list page: search, fee range and facility filter over the loaded gyms,
    followed by a sort on the key chosen in the drop-down. Ratings and distances, which
    are floating point on the page, are integers here. */
module GymList {
  import opened Text
  import opened Seqs
  import opened Sorting

  datatype GymCard = GymCard(
    id: int,
    name: string,
    address: string,
    rating: int,
    monthlyFee: int,
    facilities: seq<string>,
    distance: int)

  /** The fee slider; the page starts at [0, 200000]. */
  datatype PriceRange = PriceRange(min: int, max: int)

  const InitialRange := PriceRange(0, 200000)

  /** The drop-down starts at "distance". */
  const InitialSortBy := "distance"

  predicate MatchesSearch(g: GymCard, term: string) {
    ContainsIgnoringCase(g.name, term) || ContainsIgnoringCase(g.address, term)
  }

  /** Both bounds are inclusive. */
  predicate MatchesPrice(g: GymCard, range: PriceRange) {
    range.min <= g.monthlyFee <= range.max
  }

  /** No selection matches everything; otherwise one shared facility is enough. */
  predicate MatchesFacilities(g: GymCard, selected: seq<string>) {
    |selected| == 0 || exists i :: 0 <= i < |selected| && selected[i] in g.facilities
  }

  predicate Passes(g: GymCard, term: string, range: PriceRange, selected: seq<string>) {
    MatchesSearch(g, term) && MatchesPrice(g, range) && MatchesFacilities(g, selected)
  }

  /** The callback given to `gyms.filter`. */
  function GymFilter(term: string, range: PriceRange, selected: seq<string>): GymCard -> bool {
    (g: GymCard) => Passes(g, term, range, selected)
  }

  /** Sort keys: each comparator `key(a) - key(b)` sorts ascending by key, so the
      rating comparator `b.rating - a.rating` is the ascending sort by minus the rating. */
  function DistanceKey(g: GymCard): int { g.distance }
  function RatingDescKey(g: GymCard): int { -g.rating }
  function FeeKey(g: GymCard): int { g.monthlyFee }

  /** The comparator switch of `filterAndSortGyms`. Any other key makes the comparator
      answer 0, which leaves the order as it is. */
  function SortCards(s: seq<GymCard>, sortBy: string): (r: seq<GymCard>)
    ensures multiset(r) == multiset(s)
    ensures sortBy == "distance" ==> forall i, j :: 0 <= i < j < |r| ==> r[i].distance <= r[j].distance
    ensures sortBy == "rating" ==> forall i, j :: 0 <= i < j < |r| ==> r[i].rating >= r[j].rating
    ensures sortBy == "price" ==> forall i, j :: 0 <= i < j < |r| ==> r[i].monthlyFee <= r[j].monthlyFee
    ensures sortBy !in {"distance", "rating", "price"} ==> r == s
    ensures sortBy == "distance" ==> StableBy(r, s, DistanceKey)
    ensures sortBy == "rating" ==> StableBy(r, s, RatingDescKey)
    ensures sortBy == "price" ==> StableBy(r, s, FeeKey)
  {
    if sortBy == "distance" then SortByStable(s, DistanceKey); SortBy(s, DistanceKey)
    else if sortBy == "rating" then SortByStable(s, RatingDescKey); SortBy(s, RatingDescKey)
    else if sortBy == "price" then SortByStable(s, FeeKey); SortBy(s, FeeKey)
    else s
  }

  /** `filterAndSortGyms`: the passing gyms, ordered by the selected key. */
  function FilterAndSortGyms(gyms: seq<GymCard>, term: string, range: PriceRange,
                             selected: seq<string>, sortBy: string): (r: seq<GymCard>)
    ensures multiset(r) == multiset(Filter(gyms, GymFilter(term, range, selected)))
    ensures forall i :: 0 <= i < |r| ==> r[i] in gyms && Passes(r[i], term, range, selected)
    ensures forall i :: 0 <= i < |gyms| && Passes(gyms[i], term, range, selected) ==> gyms[i] in r
    ensures sortBy == "distance" ==> forall i, j :: 0 <= i < j < |r| ==> r[i].distance <= r[j].distance
    ensures sortBy == "rating" ==> forall i, j :: 0 <= i < j < |r| ==> r[i].rating >= r[j].rating
    ensures sortBy == "price" ==> forall i, j :: 0 <= i < j < |r| ==> r[i].monthlyFee <= r[j].monthlyFee
    ensures sortBy !in {"distance", "rating", "price"} ==> r == Filter(gyms, GymFilter(term, range, selected))
    ensures sortBy == "distance" ==> StableBy(r, Filter(gyms, GymFilter(term, range, selected)), DistanceKey)
    ensures sortBy == "rating" ==> StableBy(r, Filter(gyms, GymFilter(term, range, selected)), RatingDescKey)
    ensures sortBy == "price" ==> StableBy(r, Filter(gyms, GymFilter(term, range, selected)), FeeKey)
  {
    var filtered := Filter(gyms, GymFilter(term, range, selected));
    var r := SortCards(filtered, sortBy);
    PermutationMembers(filtered, r);
    r
  }

  /** On arrival (empty search, no facility, default range and sort) the page lists
      every gym whose fee lies in [0, 200000], nearest first. */
  lemma InitialView(gyms: seq<GymCard>)
    ensures var r := FilterAndSortGyms(gyms, "", InitialRange, [], InitialSortBy);
      && (forall i :: 0 <= i < |gyms| && 0 <= gyms[i].monthlyFee <= 200000 ==> gyms[i] in r)
      && (forall i :: 0 <= i < |r| ==> 0 <= r[i].monthlyFee <= 200000)
      && (forall i, j :: 0 <= i < j < |r| ==> r[i].distance <= r[j].distance)
  {
    forall i | 0 <= i < |gyms| && 0 <= gyms[i].monthlyFee <= 200000
      ensures Passes(gyms[i], "", InitialRange, [])
    {
      ContainsEmpty(Lower(gyms[i].name));
    }
  }

  /** `handleFacilityToggle`: a selected facility is removed (every copy), an
      unselected one is appended. */
  function ToggleFacility(selected: seq<string>, facility: string): (r: seq<string>)
    ensures facility in selected ==> facility !in r && IsSubsequence(r, selected)
    ensures facility in selected ==>
      forall i :: 0 <= i < |selected| && selected[i] != facility ==> selected[i] in r
    ensures facility !in selected ==> r == selected + [facility]
  {
    if facility in selected then
      FilterIsSubsequence(selected, (f: string) => f != facility);
      Filter(selected, (f: string) => f != facility)
    else selected + [facility]
  }

  /** Toggling an unselected facility twice restores the selection. */
  lemma ToggleTwiceRestores(selected: seq<string>, facility: string)
    requires facility !in selected
    ensures ToggleFacility(ToggleFacility(selected, facility), facility) == selected
  {
    var p := (f: string) => f != facility;
    FilterAppend(selected, [facility], p);
    FilterKeepsAll(selected, p);
    assert Filter([facility], p) == [];
  }
}

=== FILE: gym_service.dfy ===
/** Gym catalogue service: registering, editing and reading gyms. The facility list is
    stored as one comma-joined string and split again when a gym is read. */
module GymService {
  import opened Wrappers
  import opened Entities

  /** The gym table, keyed by id. */
  type Gyms = map<nat, Gym>

  /** Each gym is filed under its own id. */
  predicate WellKeyed(gyms: Gyms) {
    forall id :: id in gyms ==> gyms[id].id == id
  }

  /** The favourites table as (user id, gym id) pairs. */
  type Favorites = set<(nat, nat)>

  datatype GymError = GymNotFound

  /** What the service returns and accepts for a gym. On input, `id`, `rating`,
      `reviewCount` and `isFavorite` are ignored. */
  datatype GymDto = GymDto(
    id: nat,
    name: string,
    description: string,
    address: string,
    phoneNumber: string,
    businessHours: string,
    latitude: int,
    longitude: int,
    monthlyFee: int,
    dailyFee: int,
    ptPrice: int,
    facilities: seq<string>,
    imageUrl: string,
    rating: Option<int>,
    reviewCount: Option<int>,
    isFavorite: bool)

  /** `String.join(",", names)`. */
  function Join(names: seq<string>): (s: string)
    ensures |names| == 0 ==> s == ""
    ensures |names| == 1 ==> s == names[0]
    ensures |names| >= 2 ==> ',' in s
    decreases |names|
  {
    if |names| == 0 then ""
    else if |names| == 1 then names[0]
    else names[0] + "," + Join(names[1..])
  }

  /** Every piece between commas, empty pieces included. */
  function Pieces(s: string): (p: seq<string>)
    ensures |p| >= 1
    ensures forall i :: 0 <= i < |p| ==> ',' !in p[i]
  {
    if s == [] then [[]]
    else
      var rest := Pieces(s[1..]);
      if s[0] == ',' then [[]] + rest
      else [[s[0]] + rest[0]] + rest[1..]
  }

  function DropTrailingEmpty(p: seq<string>): (r: seq<string>)
    ensures |r| <= |p| && r == p[..|r|]
    ensures |r| > 0 ==> r[|r| - 1] != []
    ensures forall i :: |r| <= i < |p| ==> p[i] == []
  {
    if |p| > 0 && p[|p| - 1] == [] then DropTrailingEmpty(p[..|p| - 1]) else p
  }

  /** `k` commas in a row. */
  function Commas(k: nat): (s: string)
    ensures |s| == k && forall i :: 0 <= i < k ==> s[i] == ','
  {
    seq(k, _ => ',')
  }

  /** `k` empty names in a row. */
  function Blanks(k: nat): (p: seq<string>)
    ensures |p| == k && forall i :: 0 <= i < k ==> p[i] == ""
  {
    seq(k, _ => "")
  }

  /** Java's `s.split(",")`: a string without a comma comes back whole (so "" gives [""]);
      otherwise the pieces with the trailing empty ones removed. Joining the result back
      gives `s` up to the commas that ended it. */
  function Split(s: string): (r: seq<string>)
    ensures ',' !in s ==> r == [s]
    ensures ',' in s ==> |r| == 0 || r[|r| - 1] != []
    ensures forall i :: 0 <= i < |r| ==> ',' !in r[i]
    ensures ',' in s ==> exists k: nat :: s == Join(r) + Commas(k)
  {
    if ',' !in s then
      CommaFreePiece(s);
      [s]
    else
      SplitJoinsBack(s);
      DropTrailingEmpty(Pieces(s))
  }

  /** Joining with a comma after the first piece. */
  lemma JoinCons(x: string, t: seq<string>)
    requires |t| >= 1
    ensures Join([x] + t) == x + "," + Join(t)
  {
    assert ([x] + t)[0] == x;
    assert ([x] + t)[1..] == t;
  }

  /** Joining with a comma before the last piece. */
  lemma {:induction false} JoinSnoc(t: seq<string>, x: string)
    requires |t| >= 1
    ensures Join(t + [x]) == Join(t) + "," + x
    decreases |t|
  {
    if |t| == 1 {
      assert t + [x] == [t[0]] + [x];
      JoinCons(t[0], [x]);
    } else {
      JoinSnoc(t[1..], x);
      assert t + [x] == [t[0]] + (t[1..] + [x]);
      JoinCons(t[0], t[1..] + [x]);
      JoinCons(t[0], t[1..]);
      assert [t[0]] + t[1..] == t;
    }
  }

  lemma ConcatAssoc(a: string, b: string, c: string, d: string)
    ensures ((a + b) + c) + d == a + ((b + c) + d)
  {
  }

  /** Prefixing a character to the first of several names prefixes it to the join. */
  lemma JoinPrependLong(c: char, x: string, t: seq<string>)
    requires |t| >= 1
    ensures Join([[c] + x] + t) == [c] + Join([x] + t)
  {
    JoinCons([c] + x, t);
    JoinCons(x, t);
    ConcatAssoc([c], x, ",", Join(t));
  }

  /** Prefixing a character to the first piece prefixes it to the join. */
  lemma JoinPrepend(c: char, rest: seq<string>)
    requires |rest| >= 1
    ensures Join([[c] + rest[0]] + rest[1..]) == [c] + Join(rest)
  {
    if |rest| >= 2 {
      JoinPrependLong(c, rest[0], rest[1..]);
      assert [rest[0]] + rest[1..] == rest;
    } else {
      assert [[c] + rest[0]] + rest[1..] == [[c] + rest[0]];
    }
  }

  /** Splitting at every comma and joining again gives the string back. */
  lemma {:induction false} JoinPieces(s: string)
    ensures Join(Pieces(s)) == s
  {
    if s != [] {
      var rest := Pieces(s[1..]);
      JoinPieces(s[1..]);
      assert s == [s[0]] + s[1..];
      if s[0] == ',' {
        JoinCons([], rest);
      } else {
        JoinPrepend(s[0], rest);
      }
    }
  }

  /** Empty pieces at the end of a non-empty list join as that many commas. */
  lemma {:induction false} JoinTrailingEmpty(r: seq<string>, m: nat)
    requires |r| >= 1
    ensures Join(r + Blanks(m)) == Join(r) + Commas(m)
    decreases m
  {
    if m > 0 {
      JoinTrailingEmpty(r, m - 1);
      assert r + Blanks(m) == (r + Blanks(m - 1)) + [""];
      JoinSnoc(r + Blanks(m - 1), "");
      assert Commas(m) == Commas(m - 1) + ",";
    } else {
      assert r + Blanks(0) == r;
    }
  }

  /** What `DropTrailingEmpty` removed is a run of empty pieces. */
  lemma DroppedAreEmpty(p: seq<string>)
    ensures var r := DropTrailingEmpty(p);
      p == r + Blanks(|p| - |r|)
  {
    var r := DropTrailingEmpty(p);
    var t := r + Blanks(|p| - |r|);
    assert |t| == |p|;
    forall i | 0 <= i < |p|
      ensures t[i] == p[i]
    {
      if i < |r| {
        assert t[i] == r[i];
      } else {
        assert t[i] == "";
      }
    }
  }

  /** A list followed by m empty names joins as the list's join followed by commas: m of
      them after a non-empty list, m - 1 after an empty one. */
  lemma JoinPadded(r: seq<string>, m: nat)
    requires |r| + m >= 1
    ensures Join(r + Blanks(m)) == Join(r) + Commas(if |r| >= 1 then m else m - 1)
  {
    if |r| >= 1 {
      JoinTrailingEmpty(r, m);
    } else {
      assert r + Blanks(m) == [""] + Blanks(m - 1);
      JoinTrailingEmpty([""], m - 1);
    }
  }

  /** Dropping the trailing empty pieces of a non-empty list removes only commas from the
      end of its join. */
  lemma JoinDropTrailing(p: seq<string>)
    requires |p| >= 1
    ensures exists k: nat :: Join(p) == Join(DropTrailingEmpty(p)) + Commas(k)
  {
    var r := DropTrailingEmpty(p);
    var m := |p| - |r|;
    DroppedAreEmpty(p);
    JoinPadded(r, m);
    var k: nat := if |r| >= 1 then m else m - 1;
    assert Join(p) == Join(r) + Commas(k);
  }

  /** The characterisation behind `Split`'s last clause. */
  lemma SplitJoinsBack(s: string)
    ensures exists k: nat :: s == Join(DropTrailingEmpty(Pieces(s))) + Commas(k)
  {
    JoinPieces(s);
    JoinDropTrailing(Pieces(s));
  }

  lemma {:induction false} CommaFreePiece(s: string)
    requires ',' !in s
    ensures Pieces(s) == [s]
  {
    if s != [] {
      assert ',' !in s[1..];
      CommaFreePiece(s[1..]);
      assert [s[0]] + s[1..] == s;
    }
  }

  /** A comma-free name followed by a comma contributes exactly one piece. */
  lemma {:induction false} PiecesAfterName(x: string, t: string)
    requires ',' !in x
    ensures Pieces(x + "," + t) == [x] + Pieces(t)
  {
    if x == [] {
      assert x + "," + t == [','] + t;
      assert ([','] + t)[1..] == t;
    } else {
      assert ',' !in x[1..];
      PiecesAfterName(x[1..], t);
      assert (x + "," + t)[1..] == x[1..] + "," + t;
      assert [x[0]] + x[1..] == x;
    }
  }

  lemma {:induction false} PiecesOfJoin(names: seq<string>)
    requires |names| >= 1
    requires forall i :: 0 <= i < |names| ==> ',' !in names[i]
    ensures Pieces(Join(names)) == names
    decreases |names|
  {
    if |names| == 1 {
      CommaFreePiece(names[0]);
    } else {
      PiecesOfJoin(names[1..]);
      PiecesAfterName(names[0], Join(names[1..]));
      assert [names[0]] + names[1..] == names;
    }
  }

  /** Storing a facility list and reading it back gives the same list when it is
      non-empty and its names are non-empty and comma-free. */
  lemma {:induction false} SplitJoinRoundTrip(names: seq<string>)
    requires |names| >= 1
    requires forall i :: 0 <= i < |names| ==> names[i] != [] && ',' !in names[i]
    ensures Split(Join(names)) == names
  {
    PiecesOfJoin(names);
    if |names| >= 2 {
      assert DropTrailingEmpty(names) == names;
    }
  }

  /** Outside those conditions the round trip fails: an empty list comes back as one
      empty name, and a trailing empty name is lost. An empty name between two others
      survives. */
  lemma SplitJoinEdgeCases()
    ensures Split(Join([])) == [""]
    ensures Split(Join(["a", ""])) == ["a"]
    ensures Split("a,,b") == ["a", "", "b"]
  {
    assert Pieces("a,,b") == ["a", "", "b"] by {
      CommaFreePiece("b");
      PiecesAfterName("", "b");
      assert "a,,b" == "a" + "," + ",b";
      assert ",b" == "" + "," + "b";
      PiecesAfterName("a", ",b");
    }
    assert ',' in "a,,b" by {
      assert "a,,b"[1] == ',';
    }
    assert DropTrailingEmpty(["a", "", "b"]) == ["a", "", "b"];
    assert Join(["a", ""]) == "a,";
    assert Pieces("a,") == ["a", ""] by {
      PiecesAfterName("a", "");
    }
    assert DropTrailingEmpty(["a", ""]) == ["a"] by {
      assert ["a", ""][..1] == ["a"];
    }
  }


  /** `convertToDto`: copies the entity, splits the facility string, and asks the
      favourites table only when a user is given. */
  function ConvertToDto(gym: Gym, userId: Option<nat>, favorites: Favorites): (dto: GymDto)
    ensures dto.isFavorite <==> userId.Some? && (userId.value, gym.id) in favorites
    ensures userId.None? ==> !dto.isFavorite
    ensures dto.facilities == Split(gym.facilities)
    ensures dto.rating == gym.rating && dto.reviewCount == gym.reviewCount
    ensures dto.id == gym.id && dto.name == gym.name && dto.description == gym.description
    ensures dto.address == gym.address && dto.phoneNumber == gym.phoneNumber
    ensures dto.businessHours == gym.businessHours
    ensures dto.latitude == gym.latitude && dto.longitude == gym.longitude
    ensures dto.monthlyFee == gym.monthlyFee && dto.dailyFee == gym.dailyFee
    ensures dto.ptPrice == gym.ptPrice && dto.imageUrl == gym.imageUrl
  {
    var isFavorite := userId.Some? && (userId.value, gym.id) in favorites;
    GymDto(gym.id, gym.name, gym.description, gym.address, gym.phoneNumber, gym.businessHours,
           gym.latitude, gym.longitude, gym.monthlyFee, gym.dailyFee, gym.ptPrice,
           Split(gym.facilities), gym.imageUrl, gym.rating, gym.reviewCount, isFavorite)
  }

  /** `getGymById`. */
  function GetGymById(gyms: Gyms, gymId: nat, userId: Option<nat>, favorites: Favorites)
    : (r: Result<GymDto, GymError>)
    ensures r.Err? <==> gymId !in gyms
    ensures r.Ok? ==> r.value == ConvertToDto(gyms[gymId], userId, favorites)
  {
    if gymId in gyms then Ok(ConvertToDto(gyms[gymId], userId, favorites)) else Err(GymNotFound)
  }

  /** The twelve fields that registering and editing take from the form, the facility
      list joined with commas. */
  predicate TakesEditableFields(g: Gym, dto: GymDto) {
    && g.name == dto.name && g.description == dto.description && g.address == dto.address
    && g.phoneNumber == dto.phoneNumber && g.businessHours == dto.businessHours
    && g.latitude == dto.latitude && g.longitude == dto.longitude
    && g.monthlyFee == dto.monthlyFee && g.dailyFee == dto.dailyFee && g.ptPrice == dto.ptPrice
    && g.facilities == Join(dto.facilities) && g.imageUrl == dto.imageUrl
  }

  /** `createGym`. The builder ignores the entity's field initialisers, so a new gym has
      no rating and no review count. `newId` is the generated key. */
  function CreateGym(gyms: Gyms, dto: GymDto, newId: nat): (r: (GymDto, Gyms))
    requires newId !in gyms
    ensures r.1.Keys == gyms.Keys + {newId}
    ensures forall id :: id in gyms ==> r.1[id] == gyms[id]
    ensures r.1[newId].id == newId && r.1[newId].rating.None? && r.1[newId].reviewCount.None?
    ensures TakesEditableFields(r.1[newId], dto)
    ensures r.0 == ConvertToDto(r.1[newId], None, {})
    ensures WellKeyed(gyms) ==> WellKeyed(r.1)
  {
    var gym := Gym(newId, dto.name, dto.description, dto.address, dto.phoneNumber,
                   dto.businessHours, dto.latitude, dto.longitude, dto.monthlyFee, dto.dailyFee,
                   dto.ptPrice, Join(dto.facilities), dto.imageUrl, None, None);
    (ConvertToDto(gym, None, {}), gyms[newId := gym])
  }

  /** A gym registered with a well-formed facility list is read back with that list,
      with no rating, and as a favourite exactly when the table says so. */
  lemma CreateThenGet(gyms: Gyms, dto: GymDto, newId: nat, userId: Option<nat>, favorites: Favorites)
    requires newId !in gyms
    requires |dto.facilities| >= 1
    requires forall i :: 0 <= i < |dto.facilities| ==>
      dto.facilities[i] != [] && ',' !in dto.facilities[i]
    ensures var after := CreateGym(gyms, dto, newId).1;
      var got := GetGymById(after, newId, userId, favorites);
      && got.Ok? && got.value.facilities == dto.facilities && got.value.rating.None?
      && (got.value.isFavorite <==> userId.Some? && (userId.value, newId) in favorites)
  {
    SplitJoinRoundTrip(dto.facilities);
  }

  /** `updateGym`: overwrites the twelve editable fields of an existing gym. */
  function UpdateGym(gyms: Gyms, gymId: nat, dto: GymDto): (r: Result<(GymDto, Gyms), GymError>)
    ensures r.Err? <==> gymId !in gyms
    ensures r.Ok? ==> r.value.1.Keys == gyms.Keys
    ensures r.Ok? ==> forall id :: id in gyms && id != gymId ==> r.value.1[id] == gyms[id]
    ensures r.Ok? ==>
      var (out, after) := r.value;
      var before := gyms[gymId];
      var g := after[gymId];
      && g.id == before.id && g.rating == before.rating && g.reviewCount == before.reviewCount
      && TakesEditableFields(g, dto)
      && out == ConvertToDto(g, None, {})
  {
    if gymId !in gyms then Err(GymNotFound)
    else
      var g := gyms[gymId].(name := dto.name, description := dto.description,
                            address := dto.address, phoneNumber := dto.phoneNumber,
                            businessHours := dto.businessHours, latitude := dto.latitude,
                            longitude := dto.longitude, monthlyFee := dto.monthlyFee,
                            dailyFee := dto.dailyFee, ptPrice := dto.ptPrice,
                            facilities := Join(dto.facilities), imageUrl := dto.imageUrl);
      Ok((ConvertToDto(g, None, {}), gyms[gymId := g]))
  }

  /** Updating keeps the table well keyed, and repeating the same update changes
      nothing further. */
  lemma UpdateGymFacts(gyms: Gyms, gymId: nat, dto: GymDto)
    requires WellKeyed(gyms)
    requires gymId in gyms
    ensures var after := UpdateGym(gyms, gymId, dto).value.1;
      && WellKeyed(after)
      && UpdateGym(after, gymId, dto).value.1 == after
  {
    var after := UpdateGym(gyms, gymId, dto).value.1;
    var again := UpdateGym(after, gymId, dto).value.1;
    assert again[gymId] == after[gymId];
    assert again == after;
  }
}

=== FILE: legacy_script.dfy ===
/** The legacy single-page script: searching and sorting the globally loaded gyms and
    trainers, and the popular-gyms strip on the home page. Fields the server may leave
    out are optional and count as 0 where the script writes `|| 0`. */
module LegacyScript {
  import opened Wrappers
  import opened Text
  import opened Seqs
  import opened Sorting

  datatype Gym = Gym(id: int, name: string, address: string, rating: Option<int>,
                     monthlyFee: Option<int>)

  datatype Trainer = Trainer(id: int, name: string, specialization: string, rating: Option<int>,
                             experienceYears: Option<int>, ptPrice: Option<int>)

  /** The script's globals and what the grids currently display. */
  datatype State = State(gyms: seq<Gym>, trainers: seq<Trainer>,
                         shownGyms: seq<Gym>, shownTrainers: seq<Trainer>)

  /** The search box hits a gym's name or address, ignoring case. */
  predicate GymHit(g: Gym, term: string) {
    ContainsIgnoringCase(g.name, term) || ContainsIgnoringCase(g.address, term)
  }

  /** The search box hits a trainer's name or specialization, ignoring case. */
  predicate TrainerHit(t: Trainer, term: string) {
    ContainsIgnoringCase(t.name, term) || ContainsIgnoringCase(t.specialization, term)
  }

  function GymMatch(term: string): Gym -> bool {
    (g: Gym) => GymHit(g, term)
  }

  function TrainerMatch(term: string): Trainer -> bool {
    (t: Trainer) => TrainerHit(t, term)
  }

  /** `searchGyms`: filters the global list, never the displayed one. */
  function SearchGyms(st: State, term: string): (r: State)
    ensures r.gyms == st.gyms && r.trainers == st.trainers && r.shownTrainers == st.shownTrainers
    ensures forall i :: 0 <= i < |r.shownGyms| ==> r.shownGyms[i] in st.gyms && GymHit(r.shownGyms[i], term)
    ensures forall i :: 0 <= i < |st.gyms| && GymHit(st.gyms[i], term) ==> st.gyms[i] in r.shownGyms
    ensures IsSubsequence(r.shownGyms, st.gyms)
  {
    FilterIsSubsequence(st.gyms, GymMatch(term));
    st.(shownGyms := Filter(st.gyms, GymMatch(term)))
  }

  /** `searchTrainers`: the trainers whose name or specialization contains the term. */
  function SearchTrainers(st: State, term: string): (r: State)
    ensures r.gyms == st.gyms && r.trainers == st.trainers && r.shownGyms == st.shownGyms
    ensures forall i :: 0 <= i < |r.shownTrainers| ==>
      r.shownTrainers[i] in st.trainers && TrainerHit(r.shownTrainers[i], term)
    ensures forall i :: 0 <= i < |st.trainers| && TrainerHit(st.trainers[i], term) ==>
      st.trainers[i] in r.shownTrainers
    ensures IsSubsequence(r.shownTrainers, st.trainers)
  {
    FilterIsSubsequence(st.trainers, TrainerMatch(term));
    st.(shownTrainers := Filter(st.trainers, TrainerMatch(term)))
  }

  function GymRatingDesc(g: Gym): int { -g.rating.GetOr(0) }
  function GymFee(g: Gym): int { g.monthlyFee.GetOr(0) }

  /** `sortGyms`: sorts a copy of the global list and displays it; "distance" and any
      other choice display the copy unsorted. */
  function SortGyms(st: State, sortType: string): (r: State)
    ensures r.gyms == st.gyms && r.trainers == st.trainers && r.shownTrainers == st.shownTrainers
    ensures multiset(r.shownGyms) == multiset(st.gyms)
    ensures sortType == "rating" ==> forall i, j :: 0 <= i < j < |r.shownGyms| ==>
      r.shownGyms[i].rating.GetOr(0) >= r.shownGyms[j].rating.GetOr(0)
    ensures sortType == "price" ==> forall i, j :: 0 <= i < j < |r.shownGyms| ==>
      r.shownGyms[i].monthlyFee.GetOr(0) <= r.shownGyms[j].monthlyFee.GetOr(0)
    ensures sortType != "rating" && sortType != "price" ==> r.shownGyms == st.gyms
    ensures sortType == "rating" ==> StableBy(r.shownGyms, st.gyms, GymRatingDesc)
    ensures sortType == "price" ==> StableBy(r.shownGyms, st.gyms, GymFee)
  {
    SortByStable(st.gyms, GymRatingDesc);
    SortByStable(st.gyms, GymFee);
    var sorted := if sortType == "rating" then SortBy(st.gyms, GymRatingDesc)
                  else if sortType == "price" then SortBy(st.gyms, GymFee)
                  else st.gyms;
    st.(shownGyms := sorted)
  }

  function TrainerRatingDesc(t: Trainer): int { -t.rating.GetOr(0) }
  function TrainerExperienceDesc(t: Trainer): int { -t.experienceYears.GetOr(0) }
  function TrainerPrice(t: Trainer): int { t.ptPrice.GetOr(0) }

  /** `sortTrainers`: the same on the trainer list. */
  function SortTrainers(st: State, sortType: string): (r: State)
    ensures r.gyms == st.gyms && r.trainers == st.trainers && r.shownGyms == st.shownGyms
    ensures multiset(r.shownTrainers) == multiset(st.trainers)
    ensures sortType == "rating" ==> forall i, j :: 0 <= i < j < |r.shownTrainers| ==>
      r.shownTrainers[i].rating.GetOr(0) >= r.shownTrainers[j].rating.GetOr(0)
    ensures sortType == "experience" ==> forall i, j :: 0 <= i < j < |r.shownTrainers| ==>
      r.shownTrainers[i].experienceYears.GetOr(0) >= r.shownTrainers[j].experienceYears.GetOr(0)
    ensures sortType == "price" ==> forall i, j :: 0 <= i < j < |r.shownTrainers| ==>
      r.shownTrainers[i].ptPrice.GetOr(0) <= r.shownTrainers[j].ptPrice.GetOr(0)
    ensures sortType !in {"rating", "experience", "price"} ==> r.shownTrainers == st.trainers
    ensures sortType == "rating" ==> StableBy(r.shownTrainers, st.trainers, TrainerRatingDesc)
    ensures sortType == "experience" ==> StableBy(r.shownTrainers, st.trainers, TrainerExperienceDesc)
    ensures sortType == "price" ==> StableBy(r.shownTrainers, st.trainers, TrainerPrice)
  {
    SortByStable(st.trainers, TrainerRatingDesc);
    SortByStable(st.trainers, TrainerExperienceDesc);
    SortByStable(st.trainers, TrainerPrice);
    var sorted := if sortType == "rating" then SortBy(st.trainers, TrainerRatingDesc)
                  else if sortType == "experience" then SortBy(st.trainers, TrainerExperienceDesc)
                  else if sortType == "price" then SortBy(st.trainers, TrainerPrice)
                  else st.trainers;
    st.(shownTrainers := sorted)
  }

  /** Sorting never touches the global list, so a search after a sort shows the same
      gyms in the same order as a search without it: the earlier sort is lost. */
  lemma SearchIgnoresEarlierSort(st: State, sortType: string, term: string)
    ensures SearchGyms(SortGyms(st, sortType), term).shownGyms == SearchGyms(st, term).shownGyms
  {
    assert SortGyms(st, sortType).gyms == st.gyms;
  }

  /** An empty search box shows every loaded gym, in loaded order. */
  lemma EmptySearchShowsAll(st: State)
    ensures SearchGyms(st, "").shownGyms == st.gyms
  {
    forall i | 0 <= i < |st.gyms|
      ensures GymMatch("")(st.gyms[i])
    {
      ContainsEmpty(Lower(st.gyms[i].name));
    }
    FilterKeepsAll(st.gyms, GymMatch(""));
  }

  /** An empty search box shows every loaded trainer, in loaded order. */
  lemma EmptyTrainerSearchShowsAll(st: State)
    ensures SearchTrainers(st, "").shownTrainers == st.trainers
  {
    forall i | 0 <= i < |st.trainers|
      ensures TrainerMatch("")(st.trainers[i])
    {
      ContainsEmpty(Lower(st.trainers[i].name));
    }
    FilterKeepsAll(st.trainers, TrainerMatch(""));
  }

  /** The popular-gyms strip: the first four gyms of the list, or all of a shorter one. */
  function PopularGyms(gyms: seq<Gym>): (r: seq<Gym>)
    ensures |r| == if |gyms| < 4 then |gyms| else 4
    ensures r == gyms[..|r|]
  {
    if |gyms| <= 4 then gyms else gyms[..4]
  }
}

=== FILE: oauth2_controller.dfy ===
/** The `/api/oauth2/user` endpoint: it reads e-mail, name and provider id out of the
    provider's attribute map (Google, Kakao and Naver lay it out differently), fills
    missing values with defaults, guesses the provider from the principal's name and hands
    over to `AuthService.ProcessSocialLogin`. */
module OAuth2Controller {
  import opened Wrappers
  import opened Text
  import opened Entities
  import AuthService

  /** A JSON-like attribute value. A key that is absent reads as `Null`, as `Map.get` does. */
  datatype Value = Null | Str(s: string) | Num(n: int) | Obj(fields: map<string, Value>)

  /** The authenticated principal: its name and its attribute map. */
  datatype Principal = Principal(name: string, attributes: map<string, Value>)

  /** What the endpoint answers. A failed cast happens outside the `try`, so it escapes the
      handler and becomes a server error. */
  datatype LoginResponse = LoginResponse(userId: nat, username: string, email: string,
                                         nickname: string, authProvider: AuthProvider)
  datatype Response = Success(login: LoginResponse) | BadRequest | ServerError

  /** The values the handler extracted; `None` stands for Java's `null`. */
  datatype Fields = Fields(email: Option<string>, name: Option<string>, providerId: Option<string>)

  /** A `ClassCastException` from one of the casts. */
  datatype CastFailure = CastFailure

  function Get(m: map<string, Value>, key: string): Value {
    if key in m then m[key] else Null
  }

  /** `(String) v`: succeeds on null and on strings. */
  function AsString(v: Value): (r: Result<Option<string>, CastFailure>)
    ensures r.Ok? <==> v.Null? || v.Str?
    ensures v.Null? ==> r == Ok(None)
    ensures v.Str? ==> r == Ok(Some(v.s))
  {
    match v
    case Null => Ok(None)
    case Str(s) => Ok(Some(s))
    case _ => Err(CastFailure)
  }

  /** `(Map<String, Object>) v`: succeeds on null and on maps. */
  function AsMap(v: Value): (r: Result<Option<map<string, Value>>, CastFailure>)
    ensures r.Ok? <==> v.Null? || v.Obj?
    ensures v.Null? ==> r == Ok(None)
    ensures v.Obj? ==> r == Ok(Some(v.fields))
  {
    match v
    case Null => Ok(None)
    case Obj(m) => Ok(Some(m))
    case _ => Err(CastFailure)
  }

  /** `m.get(key)` cast to a string when the map is there, null otherwise. */
  function StringIn(m: Option<map<string, Value>>, key: string): Result<Option<string>, CastFailure> {
    match m
    case None => Ok(None)
    case Some(fields) => AsString(Get(fields, key))
  }

  /** `String.valueOf(v)`. A nested map is rendered as a fixed placeholder. */
  function ValueOf(v: Value): (r: string)
    ensures v.Null? ==> r == "null"
    ensures v.Str? ==> r == v.s
    ensures v.Num? ==> ParseInt(r) == Some(v.n)
    ensures v.Num? && v.n >= 0 ==> |r| >= 1 && AllDigits(r) && (|r| > 1 ==> r[0] != '0')
    ensures v.Num? && v.n < 0 ==> |r| >= 2 && r[0] == '-' && AllDigits(r[1..]) && r[1] != '0'
  {
    match v
    case Null => "null"
    case Str(s) => s
    case Num(n) => ParseIntOfIntToString(n); IntToString(n)
    case Obj(_) => "{}"
  }

  /** A value that a `(String)` cast accepts. */
  predicate IsStringOrNull(v: Value) {
    v.Null? || v.Str?
  }

  /** A value that a `(Map<String, Object>)` cast accepts. */
  predicate IsMapOrNull(v: Value) {
    v.Null? || v.Obj?
  }

  /** When `v` is a map, its entry `key` is a string or null. */
  predicate StringOrNullIn(v: Value, key: string) {
    v.Obj? ==> IsStringOrNull(Get(v.fields, key))
  }

  /** The string a value holds, `None` for anything else. */
  function StringOf(v: Value): Option<string> {
    if v.Str? then Some(v.s) else None
  }

  /** The string under `key` when `v` is a map, `None` when it is not. */
  function StringOfIn(v: Value, key: string): Option<string> {
    if v.Obj? then StringOf(Get(v.fields, key)) else None
  }

  /** The attribute layouts, tried in this order: Google (a `sub` key), Kakao (an `id`
      key), Naver (a `response` key). Any other map yields nothing. */
  function Extract(a: map<string, Value>): (r: Result<Fields, CastFailure>)
    ensures "sub" !in a && "id" !in a && "response" !in a ==> r == Ok(Fields(None, None, None))
    // Google: three top-level strings.
    ensures "sub" in a ==>
      (r.Ok? <==> forall k :: k in ["email", "name", "sub"] ==> IsStringOrNull(Get(a, k)))
    ensures "sub" in a && r.Ok? ==>
      r.value == Fields(StringOf(Get(a, "email")), StringOf(Get(a, "name")), StringOf(a["sub"]))
    // Kakao: the e-mail inside `kakao_account`, the nickname inside `properties`, and the
    // id rendered as text whatever its type.
    ensures "sub" !in a && "id" in a ==>
      (r.Ok? <==>
        && IsMapOrNull(Get(a, "kakao_account")) && StringOrNullIn(Get(a, "kakao_account"), "email")
        && IsMapOrNull(Get(a, "properties")) && StringOrNullIn(Get(a, "properties"), "nickname"))
    ensures "sub" !in a && "id" in a && r.Ok? ==>
      r.value == Fields(StringOfIn(Get(a, "kakao_account"), "email"),
                        StringOfIn(Get(a, "properties"), "nickname"),
                        Some(ValueOf(a["id"])))
    // Naver: everything inside `response`; a null `response` leaves all three null.
    ensures "sub" !in a && "id" !in a && "response" in a ==>
      (r.Ok? <==>
        && IsMapOrNull(a["response"]) && StringOrNullIn(a["response"], "email")
        && StringOrNullIn(a["response"], "name") && StringOrNullIn(a["response"], "id"))
    ensures "sub" !in a && "id" !in a && "response" in a && r.Ok? ==>
      r.value == Fields(StringOfIn(a["response"], "email"), StringOfIn(a["response"], "name"),
                        StringOfIn(a["response"], "id"))
  {
    if "sub" in a then
      var email :- AsString(Get(a, "email"));
      var name :- AsString(Get(a, "name"));
      var providerId :- AsString(Get(a, "sub"));
      Ok(Fields(email, name, providerId))
    else if "id" in a then
      var account :- AsMap(Get(a, "kakao_account"));
      var email :- StringIn(account, "email");
      var properties :- AsMap(Get(a, "properties"));
      var name :- StringIn(properties, "nickname");
      Ok(Fields(email, name, Some(ValueOf(Get(a, "id")))))
    else if "response" in a then
      var response :- AsMap(Get(a, "response"));
      var email :- StringIn(response, "email");
      var name :- StringIn(response, "name");
      var providerId :- StringIn(response, "id");
      Ok(Fields(email, name, providerId))
    else
      Ok(Fields(None, None, None))
  }

  /** The Google layout wins over the others: once `sub` is present, the keys the Kakao
      and Naver branches read make no difference. */
  lemma GoogleLayoutFirst(a: map<string, Value>, key: string, v: Value)
    requires "sub" in a
    requires key in ["id", "kakao_account", "properties", "response"]
    ensures Extract(a[key := v]) == Extract(a)
  {
    assert Get(a[key := v], "email") == Get(a, "email");
    assert Get(a[key := v], "name") == Get(a, "name");
    assert Get(a[key := v], "sub") == Get(a, "sub");
  }

  /** Likewise the Kakao layout wins over Naver's. */
  lemma KakaoLayoutBeforeNaver(a: map<string, Value>, v: Value)
    requires "sub" !in a && "id" in a
    ensures Extract(a["response" := v]) == Extract(a)
  {
    var b := a["response" := v];
    assert Get(b, "kakao_account") == Get(a, "kakao_account");
    assert Get(b, "properties") == Get(a, "properties");
    assert Get(b, "id") == Get(a, "id");
  }

  /** `determineAuthProvider`: the first of google, kakao, naver that the principal's name
      contains; LOCAL when it contains none. */
  function DetermineAuthProvider(registrationId: string): (p: AuthProvider)
    ensures p == GOOGLE <==> Contains(registrationId, "google")
    ensures p == KAKAO <==> !Contains(registrationId, "google") && Contains(registrationId, "kakao")
    ensures p == NAVER <==>
      !Contains(registrationId, "google") && !Contains(registrationId, "kakao") &&
      Contains(registrationId, "naver")
    ensures p == LOCAL <==>
      !Contains(registrationId, "google") && !Contains(registrationId, "kakao") &&
      !Contains(registrationId, "naver")
  {
    if Contains(registrationId, "google") then GOOGLE
    else if Contains(registrationId, "kakao") then KAKAO
    else if Contains(registrationId, "naver") then NAVER
    else LOCAL
  }

  /** The two clock readings: the one for a temporary e-mail and the one for a temporary
      provider id. */
  datatype Clock = Clock(emailMillis: int, providerIdMillis: int)

  const DefaultName: string := "OAuth 사용자"

  function TempEmail(millis: int): (e: string)
    ensures |e| > 15 && e[..5] == "temp_" && e[|e| - 10..] == "@oauth.com"
    ensures ParseInt(e[5..|e| - 10]) == Some(millis)
    ensures e[5..|e| - 10] == ValueOf(Num(millis))
  {
    var digits := IntToString(millis);
    assert |digits| >= 1;
    var e := "temp_" + digits + "@oauth.com";
    assert e[..5] == "temp_";
    assert e[5..|e| - 10] == digits;
    assert e[|e| - 10..] == "@oauth.com";
    ParseIntOfIntToString(millis);
    e
  }

  /** The values passed on to social login once the defaults are applied. */
  datatype Identity = Identity(email: string, name: string, providerId: string)

  function WithDefaults(f: Fields, clock: Clock): (id: Identity)
    ensures id.email == (if f.email.Some? then f.email.value else TempEmail(clock.emailMillis))
    ensures id.name == (if f.name.Some? then f.name.value else DefaultName)
    ensures f.providerId.None? ==> ParseInt(id.providerId) == Some(clock.providerIdMillis)
    ensures f.providerId.None? ==> id.providerId == ValueOf(Num(clock.providerIdMillis))
    ensures f.providerId.Some? ==> id.providerId == f.providerId.value
  {
    ParseIntOfIntToString(clock.providerIdMillis);
    Identity(f.email.GetOr(TempEmail(clock.emailMillis)), f.name.GetOr(DefaultName),
             f.providerId.GetOr(IntToString(clock.providerIdMillis)))
  }

  /** `getOAuth2User`: the answer and the user table afterwards. `encodedPassword` and
      `newId` are what the service uses if it has to create the user. */
  function GetOAuth2User(principal: Option<Principal>, users: seq<User>, clock: Clock,
                         encodedPassword: string, newId: nat): (r: (Response, seq<User>))
    ensures principal.None? ==> r == (BadRequest, users)
    ensures principal.Some? && Extract(principal.value.attributes).Err? ==> r == (ServerError, users)
    ensures r.0.BadRequest? ==> r.1 == users
    ensures principal.Some? && Extract(principal.value.attributes).Ok? ==>
      var id := WithDefaults(Extract(principal.value.attributes).value, clock);
      var login := AuthService.ProcessSocialLogin(users, id.email, id.name, id.providerId,
                                                  DetermineAuthProvider(principal.value.name),
                                                  encodedPassword, newId);
      && (login.Err? <==> r == (BadRequest, users))
      && (login.Ok? ==>
            var (u, after) := login.value;
            r == (Success(LoginResponse(u.id, u.username, u.email, u.nickname, u.authProvider)),
                  after))
    ensures r.0.Success? ==>
      principal.Some? && Extract(principal.value.attributes).Ok? &&
      var id := WithDefaults(Extract(principal.value.attributes).value, clock);
      && r.0.login.email == id.email
      && (exists i :: 0 <= i < |r.1| && r.1[i].id == r.0.login.userId && r.1[i].email == id.email)
      && (r.1 == users || r.1 == users + [User(newId, id.email, encodedPassword, id.email, id.name,
                                                USER, DetermineAuthProvider(principal.value.name),
                                                Some(id.providerId), true)])
  {
    match principal
    case None => (BadRequest, users)
    case Some(p) =>
      match Extract(p.attributes)
      case Err(_) => (ServerError, users)
      case Ok(fields) =>
        var id := WithDefaults(fields, clock);
        var provider := DetermineAuthProvider(p.name);
        match AuthService.ProcessSocialLogin(users, id.email, id.name, id.providerId, provider,
                                             encodedPassword, newId)
        case Err(_) => (BadRequest, users)
        case Ok((u, after)) =>
          assert exists i :: 0 <= i < |after| && after[i] == u && u.email == id.email by {
            if !AuthService.EmailInUse(users, id.email) {
              assert after[|users|] == u;
            }
          }
          (Success(LoginResponse(u.id, u.username, u.email, u.nickname, u.authProvider)), after)
  }

  /** A principal whose attributes carry an e-mail gets the same answer every time: after
      a successful login the second one adds no user and answers with the same account,
      and a refused login is refused again. */
  lemma RepeatedLoginSameAccount(p: Principal, users: seq<User>, clock: Clock, clock2: Clock,
                                 encodedPassword: string, encodedPassword2: string,
                                 newId: nat, newId2: nat)
    requires AuthService.UniqueUsers(users)
    requires Extract(p.attributes).Ok? && Extract(p.attributes).value.email.Some?
    ensures var (first, after) := GetOAuth2User(Some(p), users, clock, encodedPassword, newId);
      GetOAuth2User(Some(p), after, clock2, encodedPassword2, newId2) == (first, after)
  {
    var f := Extract(p.attributes).value;
    var id := WithDefaults(f, clock);
    var id2 := WithDefaults(f, clock2);
    assert id2.email == id.email;
    if AuthService.ProcessSocialLogin(users, id.email, id.name, id.providerId,
                                      DetermineAuthProvider(p.name), encodedPassword, newId).Ok? {
      AuthService.SocialLoginFacts(users, id.email, id.name, id.providerId,
                                   DetermineAuthProvider(p.name), encodedPassword, newId,
                                   id2.name, id2.providerId, DetermineAuthProvider(p.name),
                                   encodedPassword2, newId2);
    }
  }

  /** Without an e-mail attribute the account is keyed by a temporary address that embeds
      the clock reading, so two logins at different milliseconds create two accounts. */
  lemma MissingEmailGivesFreshAddress(f: Fields, clock: Clock, clock2: Clock)
    requires f.email.None?
    requires clock.emailMillis != clock2.emailMillis
    ensures WithDefaults(f, clock).email != WithDefaults(f, clock2).email
  {
    var e := WithDefaults(f, clock).email;
    var e2 := WithDefaults(f, clock2).email;
    assert ParseInt(e[5..|e| - 10]) == Some(clock.emailMillis);
    assert ParseInt(e2[5..|e2| - 10]) == Some(clock2.emailMillis);
  }
}

=== FILE: purchase_service.dfy ===
/** Ticket purchases and their life cycle: buy, use at the gym by QR code, cancel, and the
    queries for a user's active purchases and for expired ones. */
module PurchaseService {
  import opened Wrappers
  import opened Seqs
  import opened Entities

  /** The `RuntimeException`s the service throws, by message. */
  datatype PurchaseError =
    | UserNotFound
    | TicketNotFound
    | PurchaseNotFound
    | AlreadyUsed
    | TicketExpired
    | UsedCannotBeCancelled

  /** A purchase is active when it is paid, unused and its expiry lies strictly after now. */
  predicate IsActive(p: Purchase, now: Time) {
    p.status == COMPLETED && !p.isUsed && p.expiryDate > now
  }

  /** `findById` / `findByQrCode` as filter callbacks. */
  function WithId(id: nat): Purchase -> bool {
    (p: Purchase) => p.id == id
  }

  function WithQrCode(qrCode: string): Purchase -> bool {
    (p: Purchase) => p.qrCode == qrCode
  }

  /** `getActivePurchasesByUserId`: the user's completed purchases, kept only when unused
      and not yet expired, in repository order. */
  function ActivePurchases(purchases: seq<Purchase>, userId: nat, now: Time): (r: seq<Purchase>)
    ensures forall i :: 0 <= i < |r| ==> r[i] in purchases && r[i].userId == userId && IsActive(r[i], now)
    ensures forall i :: 0 <= i < |purchases| && purchases[i].userId == userId && IsActive(purchases[i], now) ==>
      purchases[i] in r
    ensures forall i :: 0 <= i < |r| ==> !r[i].isUsed
    ensures IsSubsequence(r, purchases)
  {
    var keep := (p: Purchase) => p.userId == userId && IsActive(p, now);
    FilterIsSubsequence(purchases, keep);
    Filter(purchases, keep)
  }

  /** `getExpiredPurchases`: every purchase whose expiry is strictly before now. */
  function ExpiredPurchases(purchases: seq<Purchase>, now: Time): (r: seq<Purchase>)
    ensures forall i :: 0 <= i < |r| ==> r[i] in purchases && r[i].expiryDate < now
    ensures forall i :: 0 <= i < |purchases| && purchases[i].expiryDate < now ==> purchases[i] in r
  {
    Filter(purchases, (p: Purchase) => p.expiryDate < now)
  }

  /** `purchaseTicket`. The user is looked up first, then the ticket. `qrCode` stands for the
      random UUID and `newId` for the generated key. */
  function PurchaseTicket(users: seq<User>, tickets: seq<Ticket>, purchases: seq<Purchase>,
                          userId: nat, ticketId: nat, payment: PaymentMethod, now: Time,
                          qrCode: string, newId: nat): (r: Result<(Purchase, seq<Purchase>), PurchaseError>)
    ensures (forall i :: 0 <= i < |users| ==> users[i].id != userId) ==> r == Err(UserNotFound)
    ensures ((exists i :: 0 <= i < |users| && users[i].id == userId) &&
             (forall i :: 0 <= i < |tickets| ==> tickets[i].id != ticketId)) ==> r == Err(TicketNotFound)
    ensures ((exists i :: 0 <= i < |users| && users[i].id == userId) &&
             (exists i :: 0 <= i < |tickets| && tickets[i].id == ticketId)) ==> r.Ok?
    ensures r.Ok? ==>
      var (p, after) := r.value;
      && (exists i :: 0 <= i < |tickets| && tickets[i].id == ticketId &&
            p.amount == tickets[i].price && p.expiryDate == now + tickets[i].validDays * Day)
      && p.userId == userId && p.ticketId == ticketId && p.paymentMethod == payment
      && p.status == COMPLETED && !p.isUsed && p.usedAt.None?
      && p.id == newId && p.purchaseDate == now && p.qrCode == qrCode
      && after == purchases + [p]
  {
    match FirstIndex(users, (u: User) => u.id == userId)
    case None => Err(UserNotFound)
    case Some(_) =>
      match FirstIndex(tickets, (t: Ticket) => t.id == ticketId)
      case None => Err(TicketNotFound)
      case Some(ti) =>
        var ticket := tickets[ti];
        var p := Purchase(newId, userId, ticketId, ticket.price, payment, COMPLETED, now,
                          now + ticket.validDays * Day, qrCode, false, None);
        Ok((p, purchases + [p]))
  }

  /** `i` is the purchase `findByQrCode` returns. */
  predicate FirstWithQr(purchases: seq<Purchase>, qrCode: string, i: int) {
    && 0 <= i < |purchases| && purchases[i].qrCode == qrCode
    && forall j :: 0 <= j < i ==> purchases[j].qrCode != qrCode
  }

  /** `useTicket`: the purchase with the QR code is marked used at `now`. Unknown codes,
      used purchases and purchases whose expiry is strictly before now are refused, in
      that order. The payment status is never looked at. */
  function UseTicket(purchases: seq<Purchase>, qrCode: string, now: Time): (r: Result<(Purchase, seq<Purchase>), PurchaseError>)
    ensures (forall i :: 0 <= i < |purchases| ==> purchases[i].qrCode != qrCode) <==> r == Err(PurchaseNotFound)
    ensures r.Ok? ==>
      var (p, after) := r.value;
      exists i :: 0 <= i < |purchases| && purchases[i].qrCode == qrCode &&
        (forall j :: 0 <= j < i ==> purchases[j].qrCode != qrCode) &&
        !purchases[i].isUsed && purchases[i].expiryDate >= now &&
        p == purchases[i].(isUsed := true, usedAt := Some(now)) &&
        after == purchases[i := p]
    ensures forall i :: FirstWithQr(purchases, qrCode, i) ==>
      && (purchases[i].isUsed ==> r == Err(AlreadyUsed))
      && (!purchases[i].isUsed && purchases[i].expiryDate < now ==> r == Err(TicketExpired))
      && (!purchases[i].isUsed && purchases[i].expiryDate >= now ==> r.Ok?)
  {
    match FirstIndex(purchases, WithQrCode(qrCode))
    case None => Err(PurchaseNotFound)
    case Some(i) =>
      var p := purchases[i];
      if p.isUsed then Err(AlreadyUsed)
      else if p.expiryDate < now then Err(TicketExpired)
      else
        var used := p.(isUsed := true, usedAt := Some(now));
        Ok((used, purchases[i := used]))
  }

  /** `i` is the purchase `findById` returns. */
  predicate FirstWithPurchaseId(purchases: seq<Purchase>, purchaseId: nat, i: int) {
    && 0 <= i < |purchases| && purchases[i].id == purchaseId
    && forall j :: 0 <= j < i ==> purchases[j].id != purchaseId
  }

  /** `cancelPurchase`: an unused purchase becomes CANCELLED; a used one is refused. */
  function CancelPurchase(purchases: seq<Purchase>, purchaseId: nat): (r: Result<seq<Purchase>, PurchaseError>)
    ensures (forall i :: 0 <= i < |purchases| ==> purchases[i].id != purchaseId) <==> r == Err(PurchaseNotFound)
    ensures forall i :: FirstWithPurchaseId(purchases, purchaseId, i) ==>
      r == if purchases[i].isUsed then Err(UsedCannotBeCancelled)
           else Ok(purchases[i := purchases[i].(status := CANCELLED)])
    ensures r.Ok? ==>
      exists i :: 0 <= i < |purchases| && purchases[i].id == purchaseId && !purchases[i].isUsed &&
        r.value == purchases[i := purchases[i].(status := CANCELLED)]
  {
    match FirstIndex(purchases, WithId(purchaseId))
    case None => Err(PurchaseNotFound)
    case Some(i) =>
      if purchases[i].isUsed then Err(UsedCannotBeCancelled)
      else Ok(purchases[i := purchases[i].(status := CANCELLED)])
  }

  /** Cancelling twice is the same as cancelling once. */
  lemma CancelIdempotent(purchases: seq<Purchase>, purchaseId: nat)
    requires CancelPurchase(purchases, purchaseId).Ok?
    ensures CancelPurchase(CancelPurchase(purchases, purchaseId).value, purchaseId) ==
            CancelPurchase(purchases, purchaseId)
  {
    var once := CancelPurchase(purchases, purchaseId).value;
    var i := FirstIndex(purchases, WithId(purchaseId)).value;
    assert FirstWithPurchaseId(purchases, purchaseId, i);
    assert once == purchases[i := purchases[i].(status := CANCELLED)];
    assert FirstWithPurchaseId(once, purchaseId, i) by {
      assert forall j :: 0 <= j < i ==> once[j] == purchases[j];
    }
    assert once[i := once[i].(status := CANCELLED)] == once;
  }

  /** Because `useTicket` ignores the status, a cancelled purchase that is unused and not
      expired can still be used to enter. */
  lemma CancelledPurchaseCanBeUsed(p: Purchase, now: Time)
    requires p.status == CANCELLED && !p.isUsed && p.expiryDate >= now
    ensures UseTicket([p], p.qrCode, now).Ok?
    ensures !IsActive(p, now)
  {
    assert FirstIndex([p], WithQrCode(p.qrCode)) == Some(0);
  }

  /** At the exact expiry instant a purchase can still be used, yet it is no longer listed
      as active: the two checks disagree on the boundary. */
  lemma ExpiryBoundary(p: Purchase)
    requires p.status == COMPLETED && !p.isUsed
    ensures UseTicket([p], p.qrCode, p.expiryDate).Ok?
    ensures ActivePurchases([p], p.userId, p.expiryDate) == []
  {
    assert FirstIndex([p], WithQrCode(p.qrCode)) == Some(0);
  }

  /** Purchase ids are primary keys. */
  predicate UniqueIds(purchases: seq<Purchase>) {
    forall a, b :: 0 <= a < b < |purchases| ==> purchases[a].id != purchases[b].id
  }

  /** Once used, a purchase is never active and its QR code cannot be used again. */
  lemma UseIsFinal(purchases: seq<Purchase>, qrCode: string, now: Time, later: Time)
    requires UseTicket(purchases, qrCode, now).Ok?
    ensures !IsActive(UseTicket(purchases, qrCode, now).value.0, later)
    ensures UseTicket(UseTicket(purchases, qrCode, now).value.1, qrCode, later) == Err(AlreadyUsed)
  {
    var (p, after) := UseTicket(purchases, qrCode, now).value;
    var i :| 0 <= i < |purchases| && purchases[i].qrCode == qrCode &&
      (forall j :: 0 <= j < i ==> purchases[j].qrCode != qrCode) &&
      p == purchases[i].(isUsed := true, usedAt := Some(now)) && after == purchases[i := p];
    assert forall j :: 0 <= j < i ==> after[j] == purchases[j];
    FirstIndexAt(after, WithQrCode(qrCode), i);
  }

  /** A used purchase cannot be cancelled afterwards. */
  lemma CancelAfterUseFails(purchases: seq<Purchase>, qrCode: string, now: Time)
    requires UniqueIds(purchases)
    requires UseTicket(purchases, qrCode, now).Ok?
    ensures var (p, after) := UseTicket(purchases, qrCode, now).value;
      CancelPurchase(after, p.id) == Err(UsedCannotBeCancelled)
  {
    var (p, after) := UseTicket(purchases, qrCode, now).value;
    var i :| 0 <= i < |purchases| && purchases[i].qrCode == qrCode &&
      p == purchases[i].(isUsed := true, usedAt := Some(now)) && after == purchases[i := p];
    assert forall j :: 0 <= j < |after| && j != i ==> after[j].id != p.id;
    FirstIndexAt(after, WithId(p.id), i);
  }

  /** A fresh purchase of a ticket valid for at least one day is active for its buyer right
      after the purchase, and it is the only new entry. */
  lemma NewPurchaseIsActive(users: seq<User>, tickets: seq<Ticket>, purchases: seq<Purchase>,
                            userId: nat, ticketId: nat, payment: PaymentMethod, now: Time,
                            qrCode: string, newId: nat)
    requires PurchaseTicket(users, tickets, purchases, userId, ticketId, payment, now, qrCode, newId).Ok?
    requires forall i :: 0 <= i < |tickets| ==> tickets[i].validDays >= 1
    ensures var (p, after) := PurchaseTicket(users, tickets, purchases, userId, ticketId, payment, now, qrCode, newId).value;
      p in ActivePurchases(after, userId, now)
  {
    var (p, after) := PurchaseTicket(users, tickets, purchases, userId, ticketId, payment, now, qrCode, newId).value;
    assert after[|purchases|] == p;
  }

  /** No purchase is both active and expired at the same instant. */
  lemma ActiveAndExpiredDisjoint(purchases: seq<Purchase>, userId: nat, now: Time)
    ensures forall p :: p in ActivePurchases(purchases, userId, now) ==> p !in ExpiredPurchases(purchases, now)
  {
  }
}

=== FILE: seqs.dfy ===
/** `Array.prototype.filter` / `Stream.filter` on sequences, and the facts the list views
    rely on: membership, order preservation, and how filters split a collection. */
module Seqs {
  import opened Wrappers

  /** The position of the first element satisfying `p`: the row a single-result query
      (`findById`, `findByEmail`, `Optional`-returning finders) yields. */
  function FirstIndex<T>(s: seq<T>, p: T -> bool): (r: Option<nat>)
    ensures r.Some? ==> r.value < |s| && p(s[r.value])
    ensures r.Some? ==> forall j :: 0 <= j < r.value ==> !p(s[j])
    ensures r.None? <==> forall i :: 0 <= i < |s| ==> !p(s[i])
  {
    if s == [] then None
    else if p(s[0]) then Some(0)
    else match FirstIndex(s[1..], p)
      case Some(i) => Some(i + 1)
      case None => None
  }

  /** The first position satisfying `p` is what `FirstIndex` finds. */
  lemma FirstIndexAt<T>(s: seq<T>, p: T -> bool, i: nat)
    requires i < |s| && p(s[i])
    requires forall j :: 0 <= j < i ==> !p(s[j])
    ensures FirstIndex(s, p) == Some(i)
  {
  }

  /** The elements of `s` satisfying `p`, in their original order. */
  function Filter<T>(s: seq<T>, p: T -> bool): (r: seq<T>)
    ensures |r| <= |s|
    ensures forall i :: 0 <= i < |r| ==> r[i] in s && p(r[i])
    ensures forall i :: 0 <= i < |s| && p(s[i]) ==> s[i] in r
  {
    if s == [] then []
    else if p(s[0]) then [s[0]] + Filter(s[1..], p)
    else Filter(s[1..], p)
  }

  /** `r` can be obtained from `s` by deleting elements, without reordering. */
  predicate IsSubsequence<T(==)>(r: seq<T>, s: seq<T>)
    decreases |s|
  {
    if r == [] then true
    else if s == [] then false
    else if r[0] == s[0] then IsSubsequence(r[1..], s[1..])
    else IsSubsequence(r, s[1..])
  }

  /** A filter keeps the survivors in their original relative order. */
  lemma {:induction false} FilterIsSubsequence<T>(s: seq<T>, p: T -> bool)
    ensures IsSubsequence(Filter(s, p), s)
  {
    if s != [] {
      FilterIsSubsequence(s[1..], p);
      var rest := Filter(s[1..], p);
      if p(s[0]) {
        assert ([s[0]] + rest)[1..] == rest;
      } else if rest != [] {
        assert p(rest[0]);
      }
    }
  }

  /** A filter that every element passes returns the sequence itself. */
  lemma {:induction false} FilterKeepsAll<T>(s: seq<T>, p: T -> bool)
    requires forall i :: 0 <= i < |s| ==> p(s[i])
    ensures Filter(s, p) == s
  {
    if s != [] {
      FilterKeepsAll(s[1..], p);
      assert [s[0]] + s[1..] == s;
    }
  }

  /** Two predicates that agree on every element select the same elements. */
  lemma {:induction false} FilterCongruent<T>(s: seq<T>, p: T -> bool, q: T -> bool)
    requires forall i :: 0 <= i < |s| ==> p(s[i]) == q(s[i])
    ensures Filter(s, p) == Filter(s, q)
  {
    if s != [] {
      FilterCongruent(s[1..], p, q);
    }
  }

  /** Filtering a concatenation filters each part. */
  lemma {:induction false} FilterAppend<T>(s: seq<T>, t: seq<T>, p: T -> bool)
    ensures Filter(s + t, p) == Filter(s, p) + Filter(t, p)
  {
    if s == [] {
      assert s + t == t;
    } else {
      var st := s + t;
      assert st[0] == s[0];
      assert st[1..] == s[1..] + t;
      FilterAppend(s[1..], t, p);
      if p(s[0]) {
        calc {
          Filter(st, p);
          [s[0]] + Filter(s[1..] + t, p);
          [s[0]] + (Filter(s[1..], p) + Filter(t, p));
          ([s[0]] + Filter(s[1..], p)) + Filter(t, p);
        }
      }
    }
  }

  /** Filtering keeps a sub-multiset: nothing is duplicated or invented. */
  lemma {:induction false} FilterSubMultiset<T>(s: seq<T>, p: T -> bool)
    ensures multiset(Filter(s, p)) <= multiset(s)
  {
    if s != [] {
      var rest := Filter(s[1..], p);
      FilterSubMultiset(s[1..], p);
      assert s == [s[0]] + s[1..];
      assert multiset(s) == multiset{s[0]} + multiset(s[1..]);
      if p(s[0]) {
        assert Filter(s, p) == [s[0]] + rest;
        assert multiset([s[0]] + rest) == multiset{s[0]} + multiset(rest);
      } else {
        assert Filter(s, p) == rest;
      }
    }
  }

  /** When every element satisfies exactly one of three predicates, the three filters
      together have as many elements as the sequence. */
  lemma {:induction false} FilterPartition3<T>(s: seq<T>, p: T -> bool, q: T -> bool, o: T -> bool)
    requires forall i :: 0 <= i < |s| ==>
      (p(s[i]) && !q(s[i]) && !o(s[i])) ||
      (!p(s[i]) && q(s[i]) && !o(s[i])) ||
      (!p(s[i]) && !q(s[i]) && o(s[i]))
    ensures |Filter(s, p)| + |Filter(s, q)| + |Filter(s, o)| == |s|
  {
    if s != [] {
      FilterPartition3(s[1..], p, q, o);
    }
  }

  /** Two sequences with the same multiset have the same members. */
  lemma PermutationMembers<T>(a: seq<T>, b: seq<T>)
    requires multiset(a) == multiset(b)
    ensures forall i :: 0 <= i < |a| ==> a[i] in b
    ensures forall i :: 0 <= i < |b| ==> b[i] in a
  {
    forall i | 0 <= i < |a|
      ensures a[i] in b
    {
      assert a[i] in multiset(a);
    }
    forall i | 0 <= i < |b|
      ensures b[i] in a
    {
      assert b[i] in multiset(b);
    }
  }
}

=== FILE: sorting.dfy ===
/** `Array.prototype.sort` with a numeric comparator `(a, b) => key(a) - key(b)`.
    ECMAScript requires the sort to be stable; the model is a stable insertion sort. */
module Sorting {
  import opened Seqs

  /** Keys never decrease from left to right. */
  predicate SortedBy<T>(s: seq<T>, key: T -> int) {
    forall i, j :: 0 <= i < j < |s| ==> key(s[i]) <= key(s[j])
  }

  /** Every element of `s` has key at least `k`. */
  predicate AllAtLeast<T>(s: seq<T>, key: T -> int, k: int) {
    forall i :: 0 <= i < |s| ==> k <= key(s[i])
  }

  /** Inserts `x` before the first element whose key is not smaller than its own,
      so that `x` stays ahead of the elements it ties with. */
  function Insert<T>(x: T, s: seq<T>, key: T -> int): (r: seq<T>)
    ensures |r| == |s| + 1
  {
    if s == [] || key(x) <= key(s[0]) then [x] + s
    else [s[0]] + Insert(x, s[1..], key)
  }

  /** Inserting adds exactly one copy of `x`. */
  lemma {:induction false} InsertMultiset<T>(x: T, s: seq<T>, key: T -> int)
    ensures multiset(Insert(x, s, key)) == multiset(s) + multiset{x}
  {
    if s != [] && key(x) > key(s[0]) {
      InsertMultiset(x, s[1..], key);
      assert s == [s[0]] + s[1..];
    }
  }

  /** A lower bound on the keys of `s` that `x` also respects survives the insertion. */
  lemma {:induction false} InsertLowerBound<T>(x: T, s: seq<T>, key: T -> int, k: int)
    requires AllAtLeast(s, key, k) && k <= key(x)
    ensures AllAtLeast(Insert(x, s, key), key, k)
  {
    if s != [] && key(x) > key(s[0]) {
      InsertLowerBound(x, s[1..], key, k);
      var r := Insert(x, s, key);
      assert forall i :: 0 < i < |r| ==> r[i] == Insert(x, s[1..], key)[i - 1];
    }
  }

  /** Inserting into a sorted sequence keeps it sorted. */
  lemma {:induction false} InsertSorted<T>(x: T, s: seq<T>, key: T -> int)
    requires SortedBy(s, key)
    ensures SortedBy(Insert(x, s, key), key)
  {
    var r := Insert(x, s, key);
    if s == [] || key(x) <= key(s[0]) {
      forall i, j | 0 <= i < j < |r|
        ensures key(r[i]) <= key(r[j])
      {
        assert r[j] == s[j - 1];
        if i == 0 {
          assert key(s[0]) <= key(s[j - 1]);
        } else {
          assert r[i] == s[i - 1];
        }
      }
    } else {
      var rest := Insert(x, s[1..], key);
      InsertSorted(x, s[1..], key);
      assert AllAtLeast(s[1..], key, key(s[0])) by {
        forall j | 0 <= j < |s[1..]|
          ensures key(s[0]) <= key(s[1..][j])
        {
          assert s[1..][j] == s[j + 1];
        }
      }
      InsertLowerBound(x, s[1..], key, key(s[0]));
      forall i, j | 0 <= i < j < |r|
        ensures key(r[i]) <= key(r[j])
      {
        assert r[j] == rest[j - 1];
        if i > 0 {
          assert r[i] == rest[i - 1];
        }
      }
    }
  }

  /** The stable sort of `s` by ascending `key`. */
  function SortBy<T>(s: seq<T>, key: T -> int): (r: seq<T>)
    ensures SortedBy(r, key)
    ensures multiset(r) == multiset(s)
    ensures |r| == |s|
  {
    if s == [] then []
    else
      var rest := SortBy(s[1..], key);
      InsertSorted(s[0], rest, key);
      InsertMultiset(s[0], rest, key);
      assert s == [s[0]] + s[1..];
      Insert(s[0], rest, key)
  }

  /** The callback selecting the elements whose key is `k`. */
  function KeyIs<T>(key: T -> int, k: int): T -> bool {
    (x: T) => key(x) == k
  }

  /** `r` lists the elements of every key in the same relative order as `s`: elements
      that compare equal are never swapped. */
  ghost predicate StableBy<T>(r: seq<T>, s: seq<T>, key: T -> int) {
    forall k :: Filter(r, KeyIs(key, k)) == Filter(s, KeyIs(key, k))
  }

  /** Inserting `x` puts it ahead of every element with its key, and leaves the elements
      of any other key as they were. */
  lemma {:induction false} InsertTies<T>(x: T, s: seq<T>, key: T -> int, k: int)
    ensures Filter(Insert(x, s, key), KeyIs(key, k)) ==
      if key(x) == k then [x] + Filter(s, KeyIs(key, k)) else Filter(s, KeyIs(key, k))
  {
    var p := KeyIs(key, k);
    if s == [] || key(x) <= key(s[0]) {
      var r := [x] + s;
      assert r[0] == x && r[1..] == s;
    } else {
      InsertTies(x, s[1..], key, k);
      var r := [s[0]] + Insert(x, s[1..], key);
      assert r[0] == s[0] && r[1..] == Insert(x, s[1..], key);
      if key(x) == k {
        assert !p(s[0]);
      }
    }
  }

  /** The sort is stable. */
  lemma {:induction false} SortByStable<T>(s: seq<T>, key: T -> int)
    ensures StableBy(SortBy(s, key), s, key)
  {
    if s != [] {
      SortByStable(s[1..], key);
      forall k
        ensures Filter(SortBy(s, key), KeyIs(key, k)) == Filter(s, KeyIs(key, k))
      {
        InsertTies(s[0], SortBy(s[1..], key), key, k);
      }
    }
  }

  /** A comparator that always answers 0 leaves a stable sort with nothing to do:
      the order is unchanged. */
  lemma {:induction false} SortByConstantKey<T>(s: seq<T>, key: T -> int, c: int)
    requires forall i :: 0 <= i < |s| ==> key(s[i]) == c
    ensures SortBy(s, key) == s
  {
    if s != [] {
      SortByConstantKey(s[1..], key, c);
      assert [s[0]] + s[1..] == s;
    }
  }

  /** A sorted sequence is its own sort. */
  lemma {:induction false} SortBySorted<T>(s: seq<T>, key: T -> int)
    requires SortedBy(s, key)
    ensures SortBy(s, key) == s
  {
    if s != [] {
      SortBySorted(s[1..], key);
      assert [s[0]] + s[1..] == s;
    }
  }
}

=== FILE: text.dfy ===
/** Text primitives used by the search boxes, the form validation and the
    number/string conversions of the application. Strings are `seq<char>`. */
module Text {
  import opened Wrappers

  /** `toLowerCase` restricted to ASCII: only 'A'..'Z' change. */
  function LowerChar(c: char): char {
    if 'A' <= c <= 'Z' then (c as int + 32) as char else c
  }

  /** `String.prototype.toLowerCase`, modelled character by character on ASCII letters. */
  function Lower(s: string): (r: string)
    ensures |r| == |s|
    ensures forall i :: 0 <= i < |s| ==> r[i] == LowerChar(s[i])
  {
    if s == [] then [] else [LowerChar(s[0])] + Lower(s[1..])
  }

  /** Lower-casing twice is lower-casing once, so comparing lowered texts is stable. */
  lemma LowerIdempotent(s: string)
    ensures Lower(Lower(s)) == Lower(s)
  {
  }

  /** `s.includes(sub)` / `String.contains`: `sub` occurs at some position of `s`. */
  predicate Contains(s: string, sub: string) {
    exists i :: 0 <= i <= |s| && OccursAt(s, sub, i)
  }

  /** `sub` starts at position `i` of `s`. */
  predicate OccursAt(s: string, sub: string, i: nat) {
    i + |sub| <= |s| && s[i..i + |sub|] == sub
  }

  /** The empty string occurs in every string, so an empty search box matches everything. */
  lemma ContainsEmpty(s: string)
    ensures Contains(s, "")
  {
    assert OccursAt(s, "", 0);
  }

  /** `includes`, computed by scanning every start position. */
  method Includes(s: string, sub: string) returns (b: bool)
    ensures b <==> Contains(s, sub)
  {
    if |sub| > |s| {
      return false;
    }
    var i := 0;
    while i + |sub| <= |s|
      invariant 0 <= i <= |s| - |sub| + 1
      invariant forall k :: 0 <= k < i ==> !OccursAt(s, sub, k)
    {
      if s[i..i + |sub|] == sub {
        assert OccursAt(s, sub, i);
        return true;
      }
      i := i + 1;
    }
    return false;
  }

  /** Case-insensitive containment used by every search box of the application:
      `text.toLowerCase().includes(term.toLowerCase())`. */
  predicate ContainsIgnoringCase(text: string, term: string) {
    Contains(Lower(text), Lower(term))
  }

  /** ECMAScript WhiteSpace and LineTerminator code points, the set `trim` removes. */
  predicate IsJsWhitespace(c: char) {
    var n := c as int;
    || (0x09 <= n <= 0x0D)          // tab, line feed, vertical tab, form feed, carriage return
    || n == 0x20 || n == 0xA0 || n == 0x1680
    || (0x2000 <= n <= 0x200A)      // the space separators of the General Punctuation block
    || n == 0x2028 || n == 0x2029   // line and paragraph separators
    || n == 0x202F || n == 0x205F || n == 0x3000
    || n == 0xFEFF                  // byte order mark
  }

  /** `trimStart`: drops the whitespace at the front. */
  function TrimStart(s: string): (r: string)
    ensures |r| <= |s|
  {
    if |s| > 0 && IsJsWhitespace(s[0]) then TrimStart(s[1..]) else s
  }

  /** What `trimStart` leaves: the longest suffix of `s` that does not start with whitespace. */
  lemma {:induction false} TrimStartFacts(s: string)
    ensures var r := TrimStart(s);
      && r == s[|s| - |r|..]
      && (r == [] || !IsJsWhitespace(r[0]))
      && (forall i :: 0 <= i < |s| - |r| ==> IsJsWhitespace(s[i]))
  {
    if |s| > 0 && IsJsWhitespace(s[0]) {
      TrimStartFacts(s[1..]);
      var r := TrimStart(s);
      assert s[1..][|s| - 1 - |r|..] == s[|s| - |r|..];
      forall i | 0 <= i < |s| - |r|
        ensures IsJsWhitespace(s[i])
      {
        if i > 0 {
          assert s[i] == s[1..][i - 1];
        }
      }
    }
  }

  /** `trimEnd`: drops the whitespace at the back. */
  function TrimEnd(s: string): (r: string)
    ensures |r| <= |s|
  {
    if |s| > 0 && IsJsWhitespace(s[|s| - 1]) then TrimEnd(s[..|s| - 1]) else s
  }

  /** What `trimEnd` leaves: the longest prefix of `s` that does not end with whitespace. */
  lemma {:induction false} TrimEndFacts(s: string)
    ensures var r := TrimEnd(s);
      && r == s[..|r|]
      && (r == [] || !IsJsWhitespace(r[|r| - 1]))
      && (forall i :: |r| <= i < |s| ==> IsJsWhitespace(s[i]))
  {
    if |s| > 0 && IsJsWhitespace(s[|s| - 1]) {
      TrimEndFacts(s[..|s| - 1]);
      var r := TrimEnd(s);
      assert s[..|s| - 1][..|r|] == s[..|r|];
      forall i | |r| <= i < |s|
        ensures IsJsWhitespace(s[i])
      {
        if i < |s| - 1 {
          assert s[i] == s[..|s| - 1][i];
        }
      }
    }
  }

  /** `String.prototype.trim`. */
  function Trim(s: string): string {
    TrimEnd(TrimStart(s))
  }

  /** `!s.trim()` holds exactly when every character of `s` is whitespace
      (the empty string included). */
  lemma TrimEmptyIff(s: string)
    ensures Trim(s) == [] <==> forall i :: 0 <= i < |s| ==> IsJsWhitespace(s[i])
  {
    var t := TrimStart(s);
    TrimStartFacts(s);
    TrimEndFacts(t);
    if exists i :: 0 <= i < |s| && !IsJsWhitespace(s[i]) {
      var i :| 0 <= i < |s| && !IsJsWhitespace(s[i]);
      assert |t| > 0;
      assert !IsJsWhitespace(t[0]);
      assert |TrimEnd(t)| > 0;
    } else {
      assert t == [];
    }
  }

  predicate IsDigit(c: char) {
    '0' <= c <= '9'
  }

  predicate AllDigits(s: string) {
    forall i :: 0 <= i < |s| ==> IsDigit(s[i])
  }

  function DigitChar(d: int): (c: char)
    requires 0 <= d < 10
    ensures IsDigit(c)
  {
    ('0' as int + d) as char
  }

  function DigitValue(c: char): (d: int)
    requires IsDigit(c)
    ensures 0 <= d < 10 && DigitChar(d) == c
  {
    c as int - '0' as int
  }

  /** Decimal rendering of a natural number, most significant digit first, no leading zeros. */
  function NatToString(n: nat): (r: string)
    ensures |r| >= 1 && AllDigits(r)
    ensures |r| > 1 ==> r[0] != '0'
    ensures r[0] == '0' <==> n == 0
    decreases n
  {
    if n < 10 then [DigitChar(n)] else NatToString(n / 10) + [DigitChar(n % 10)]
  }

  /** Java's `String.valueOf(long)`: a '-' sign in front of the magnitude for negatives. */
  function IntToString(n: int): string {
    if n < 0 then "-" + NatToString(-n) else NatToString(n)
  }

  /** The value of a string of decimal digits. */
  function DigitsValue(s: string): (v: nat)
    requires AllDigits(s)
  {
    if s == [] then 0 else DigitsValue(s[..|s| - 1]) * 10 + DigitValue(s[|s| - 1])
  }

  /** The longest prefix of `s` made of decimal digits. */
  function LeadingDigits(s: string): (r: string)
    ensures |r| <= |s| && r == s[..|r|] && AllDigits(r)
    ensures |r| == |s| || !IsDigit(s[|r|])
  {
    if |s| > 0 && IsDigit(s[0]) then [s[0]] + LeadingDigits(s[1..]) else []
  }

  /** JavaScript `parseInt(s)` on decimal text: leading whitespace is skipped, one optional
      sign is read, then the longest run of digits; no digit at all gives NaN, here `None`. */
  function ParseInt(s: string): Option<int> {
    ParseSigned(TrimStart(s))
  }

  /** An optional '-' or '+' followed by digits. */
  function ParseSigned(t: string): Option<int> {
    if |t| > 0 && t[0] == '-' then
      match ParseDigits(t[1..])
      case Some(v) => Some(-v)
      case None => None
    else if |t| > 0 && t[0] == '+' then ParseDigits(t[1..])
    else ParseDigits(t)
  }

  /** The value of the leading run of digits, if there is one. */
  function ParseDigits(b: string): Option<int> {
    var digits := LeadingDigits(b);
    if digits == [] then None else Some(DigitsValue(digits))
  }

  lemma {:induction false} DigitsValueOfNatToString(n: nat)
    ensures DigitsValue(NatToString(n)) == n
    decreases n
  {
    if n >= 10 {
      var s := NatToString(n);
      DigitsValueOfNatToString(n / 10);
      assert s[..|s| - 1] == NatToString(n / 10);
      assert DigitValue(s[|s| - 1]) == n % 10;
    }
  }

  lemma {:induction false} LeadingDigitsOfDigits(s: string)
    requires AllDigits(s)
    ensures LeadingDigits(s) == s
  {
    if s != [] {
      LeadingDigitsOfDigits(s[1..]);
    }
  }

  /** A string that does not start with whitespace is left alone by `trimStart`. */
  lemma TrimStartNoLeadingSpace(s: string)
    requires s == [] || !IsJsWhitespace(s[0])
    ensures TrimStart(s) == s
  {
  }

  /** The rendering of a natural number parses back to it, with or without a sign. */
  lemma ParseDigitsOfNatToString(m: nat)
    ensures ParseDigits(NatToString(m)) == Some(m)
    ensures ParseSigned(NatToString(m)) == Some(m)
    ensures ParseSigned("-" + NatToString(m)) == Some(-(m as int))
  {
    var digits := NatToString(m);
    LeadingDigitsOfDigits(digits);
    DigitsValueOfNatToString(m);
    assert ("-" + digits)[1..] == digits;
  }

  /** Parsing the rendering of an integer gives the integer back: a goal id written into a
      route and read back by `parseInt` names the same goal. */
  lemma ParseIntOfIntToString(n: int)
    ensures ParseInt(IntToString(n)) == Some(n)
  {
    var m: nat := if n < 0 then -n else n;
    ParseDigitsOfNatToString(m);
    var s := IntToString(n);
    assert IsDigit(NatToString(m)[0]);
    assert s[0] == '-' || IsDigit(s[0]);
    TrimStartNoLeadingSpace(s);
  }
}

=== FILE: ticket_service.dfy ===
/** Ticket catalogue service: creating, editing, deactivating and looking up the passes a
    gym sells. The ticket table is a sequence in database order; the random QR code is
    an input. */
module TicketService {
  import opened Wrappers
  import opened Seqs
  import opened Entities
  import GymService

  datatype TicketError = GymNotFound | UnknownTicketType | TicketNotFound

  /** The fields a client sends to create or edit a ticket; `ticketType` is the enum
      constant's name. */
  datatype TicketForm = TicketForm(
    ticketType: string,
    name: string,
    description: string,
    price: int,
    validDays: int,
    gymId: nat,
    isActive: bool)

  function TypeName(t: TicketType): string {
    match t
    case DAILY => "DAILY"
    case MONTHLY => "MONTHLY"
    case YEARLY => "YEARLY"
    case PT => "PT"
  }

  /** `TicketType.valueOf`: the constant with exactly that name, or an error. */
  function ParseTicketType(s: string): (r: Option<TicketType>)
    ensures r.Some? ==> TypeName(r.value) == s
    ensures forall t: TicketType :: TypeName(t) == s ==> r == Some(t)
  {
    if s == "DAILY" then Some(DAILY)
    else if s == "MONTHLY" then Some(MONTHLY)
    else if s == "YEARLY" then Some(YEARLY)
    else if s == "PT" then Some(PT)
    else None
  }

  function WithTicketId(id: nat): Ticket -> bool {
    (t: Ticket) => t.id == id
  }

  function WithTicketQr(qrCode: string): Ticket -> bool {
    (t: Ticket) => t.qrCode == qrCode
  }

  /** `createTicket`: the gym must exist, then the type name must parse; the new ticket
      is active, carries the generated QR code and is appended. */
  function CreateTicket(gyms: GymService.Gyms, tickets: seq<Ticket>, form: TicketForm,
                        qrCode: string, newId: nat): (r: Result<(Ticket, seq<Ticket>), TicketError>)
    ensures form.gymId !in gyms ==> r == Err(GymNotFound)
    ensures form.gymId in gyms && ParseTicketType(form.ticketType).None? ==> r == Err(UnknownTicketType)
    ensures r.Ok? <==> form.gymId in gyms && ParseTicketType(form.ticketType).Some?
    ensures r.Ok? ==>
      var (t, after) := r.value;
      && TypeName(t.ticketType) == form.ticketType
      && t == Ticket(newId, t.ticketType, form.name, form.description, form.price,
                     form.validDays, qrCode, form.gymId, true)
      && after == tickets + [t]
  {
    if form.gymId !in gyms then Err(GymNotFound)
    else
      match ParseTicketType(form.ticketType)
      case None => Err(UnknownTicketType)
      case Some(ticketType) =>
        var t := Ticket(newId, ticketType, form.name, form.description, form.price,
                        form.validDays, qrCode, form.gymId, true);
        Ok((t, tickets + [t]))
  }

  /** `updateTicket`: overwrites name, description, price, valid days and the active
      flag of the ticket with that id; type, QR code and gym stay. */
  function UpdateTicket(tickets: seq<Ticket>, ticketId: nat, form: TicketForm)
    : (r: Result<(Ticket, seq<Ticket>), TicketError>)
    ensures r.Err? <==> forall i :: 0 <= i < |tickets| ==> tickets[i].id != ticketId
    ensures r.Ok? ==>
      var (t, after) := r.value;
      exists i :: 0 <= i < |tickets| && tickets[i].id == ticketId &&
        (forall j :: 0 <= j < i ==> tickets[j].id != ticketId) &&
        t.id == ticketId && t.ticketType == tickets[i].ticketType
        && t.qrCode == tickets[i].qrCode && t.gymId == tickets[i].gymId
        && t.name == form.name && t.description == form.description && t.price == form.price
        && t.validDays == form.validDays && t.isActive == form.isActive
        && after == tickets[i := t]
  {
    match FirstIndex(tickets, WithTicketId(ticketId))
    case None => Err(TicketNotFound)
    case Some(i) =>
      var t := tickets[i].(name := form.name, description := form.description,
                           price := form.price, validDays := form.validDays,
                           isActive := form.isActive);
      Ok((t, tickets[i := t]))
  }

  /** `deactivateTicket`: the ticket stays in the table but is no longer active. */
  function DeactivateTicket(tickets: seq<Ticket>, ticketId: nat): (r: Result<seq<Ticket>, TicketError>)
    ensures r.Err? <==> forall i :: 0 <= i < |tickets| ==> tickets[i].id != ticketId
    ensures r.Ok? ==>
      exists i :: 0 <= i < |tickets| && tickets[i].id == ticketId &&
        (forall j :: 0 <= j < i ==> tickets[j].id != ticketId) &&
        r.value == tickets[i := tickets[i].(isActive := false)]
  {
    match FirstIndex(tickets, WithTicketId(ticketId))
    case None => Err(TicketNotFound)
    case Some(i) => Ok(tickets[i := tickets[i].(isActive := false)])
  }

  /** Deactivating twice is the same as deactivating once. */
  lemma DeactivateIdempotent(tickets: seq<Ticket>, ticketId: nat)
    requires DeactivateTicket(tickets, ticketId).Ok?
    ensures var once := DeactivateTicket(tickets, ticketId).value;
      DeactivateTicket(once, ticketId) == Ok(once)
  {
    var once := DeactivateTicket(tickets, ticketId).value;
    var i :| 0 <= i < |tickets| && tickets[i].id == ticketId &&
      (forall j :: 0 <= j < i ==> tickets[j].id != ticketId) &&
      once == tickets[i := tickets[i].(isActive := false)];
    FirstIndexAt(once, WithTicketId(ticketId), i);
    assert once[i].(isActive := false) == once[i];
    assert once[i := once[i]] == once;
  }

  /** An update keeps every ticket's id, type, QR code and gym, and repeating the same
      update changes nothing further. */
  lemma UpdateTicketFacts(tickets: seq<Ticket>, ticketId: nat, form: TicketForm)
    requires UpdateTicket(tickets, ticketId, form).Ok?
    ensures var (t, after) := UpdateTicket(tickets, ticketId, form).value;
      && |after| == |tickets|
      && (forall k :: 0 <= k < |after| ==>
            && after[k].id == tickets[k].id && after[k].ticketType == tickets[k].ticketType
            && after[k].qrCode == tickets[k].qrCode && after[k].gymId == tickets[k].gymId)
      && UpdateTicket(after, ticketId, form) == Ok((t, after))
  {
    var (t, after) := UpdateTicket(tickets, ticketId, form).value;
    var i := FirstIndex(tickets, WithTicketId(ticketId)).value;
    FirstIndexAt(after, WithTicketId(ticketId), i);
    assert after[i].(name := form.name, description := form.description,
                     price := form.price, validDays := form.validDays,
                     isActive := form.isActive) == t;
    assert after[i := t] == after;
  }

  /** `getTicketByQrCode`: the first ticket with the code, an error when there is none. */
  function GetTicketByQrCode(tickets: seq<Ticket>, qrCode: string): (r: Result<Ticket, TicketError>)
    ensures r.Err? <==> forall i :: 0 <= i < |tickets| ==> tickets[i].qrCode != qrCode
    ensures r.Ok? ==>
      exists i :: 0 <= i < |tickets| && tickets[i] == r.value && r.value.qrCode == qrCode &&
        forall j :: 0 <= j < i ==> tickets[j].qrCode != qrCode
  {
    var matches := Filter(tickets, WithTicketQr(qrCode));
    if |matches| == 0 then Err(TicketNotFound)
    else
      FirstMatchHeadsFilter(tickets, WithTicketQr(qrCode));
      Ok(matches[0])
  }

  /** The head of a filter is the first element that satisfies the predicate. */
  lemma {:induction false} FirstMatchHeadsFilter<T>(s: seq<T>, p: T -> bool)
    requires |Filter(s, p)| > 0
    ensures FirstIndex(s, p).Some? && Filter(s, p)[0] == s[FirstIndex(s, p).value]
  {
    assert s != [];
    if p(s[0]) {
      assert Filter(s, p) == [s[0]] + Filter(s[1..], p);
      assert FirstIndex(s, p) == Some(0);
    } else {
      assert Filter(s, p) == Filter(s[1..], p);
      FirstMatchHeadsFilter(s[1..], p);
      var i := FirstIndex(s[1..], p).value;
      assert FirstIndex(s, p) == Some(i + 1);
      assert s[1..][i] == s[i + 1];
    }
  }

  /** A ticket created with a QR code no other ticket carries is what a lookup by that
      code returns. */
  lemma CreatedTicketFoundByQr(gyms: GymService.Gyms, tickets: seq<Ticket>, form: TicketForm,
                               qrCode: string, newId: nat)
    requires forall i :: 0 <= i < |tickets| ==> tickets[i].qrCode != qrCode
    requires CreateTicket(gyms, tickets, form, qrCode, newId).Ok?
    ensures var (t, after) := CreateTicket(gyms, tickets, form, qrCode, newId).value;
      GetTicketByQrCode(after, qrCode) == Ok(t)
  {
    var (t, after) := CreateTicket(gyms, tickets, form, qrCode, newId).value;
    assert after[|tickets|] == t;
  }
}

=== FILE: trainer_list.dfy ===
/** The trainer list page: search on name or gym, an exact specialization filter, and a
    sort on the chosen key. Ratings are integers here. */
module TrainerList {
  import opened Text
  import opened Seqs
  import opened Sorting

  datatype Trainer = Trainer(
    id: int,
    name: string,
    specialization: string,
    experience: int,
    rating: int,
    price: int,
    gym: string)

  /** The drop-down starts at "rating". */
  const InitialSortBy := "rating"

  /** The search box hits the name or the gym, ignoring case; an empty specialization
      selects every trainer. */
  predicate Passes(t: Trainer, term: string, specialization: string) {
    && (ContainsIgnoringCase(t.name, term) || ContainsIgnoringCase(t.gym, term))
    && (specialization == "" || t.specialization == specialization)
  }

  function TrainerFilter(term: string, specialization: string): Trainer -> bool {
    (t: Trainer) => Passes(t, term, specialization)
  }

  function RatingDescKey(t: Trainer): int { -t.rating }
  function ExperienceDescKey(t: Trainer): int { -t.experience }
  function PriceKey(t: Trainer): int { t.price }

  /** The comparator switch; any other key leaves the order as it is. */
  function SortTrainers(s: seq<Trainer>, sortBy: string): (r: seq<Trainer>)
    ensures multiset(r) == multiset(s)
    ensures sortBy == "rating" ==> forall i, j :: 0 <= i < j < |r| ==> r[i].rating >= r[j].rating
    ensures sortBy == "experience" ==> forall i, j :: 0 <= i < j < |r| ==> r[i].experience >= r[j].experience
    ensures sortBy == "price" ==> forall i, j :: 0 <= i < j < |r| ==> r[i].price <= r[j].price
    ensures sortBy !in {"rating", "experience", "price"} ==> r == s
    ensures sortBy == "rating" ==> StableBy(r, s, RatingDescKey)
    ensures sortBy == "experience" ==> StableBy(r, s, ExperienceDescKey)
    ensures sortBy == "price" ==> StableBy(r, s, PriceKey)
  {
    if sortBy == "rating" then SortByStable(s, RatingDescKey); SortBy(s, RatingDescKey)
    else if sortBy == "experience" then SortByStable(s, ExperienceDescKey); SortBy(s, ExperienceDescKey)
    else if sortBy == "price" then SortByStable(s, PriceKey); SortBy(s, PriceKey)
    else s
  }

  /** `filteredTrainers`: the matching trainers in the selected order. */
  function FilteredTrainers(trainers: seq<Trainer>, term: string, specialization: string,
                            sortBy: string): (r: seq<Trainer>)
    ensures multiset(r) == multiset(Filter(trainers, TrainerFilter(term, specialization)))
    ensures forall i :: 0 <= i < |r| ==> r[i] in trainers && Passes(r[i], term, specialization)
    ensures forall i :: 0 <= i < |trainers| && Passes(trainers[i], term, specialization) ==>
      trainers[i] in r
    ensures sortBy == "rating" ==> forall i, j :: 0 <= i < j < |r| ==> r[i].rating >= r[j].rating
    ensures sortBy == "experience" ==> forall i, j :: 0 <= i < j < |r| ==> r[i].experience >= r[j].experience
    ensures sortBy == "price" ==> forall i, j :: 0 <= i < j < |r| ==> r[i].price <= r[j].price
    ensures sortBy !in {"rating", "experience", "price"} ==>
      r == Filter(trainers, TrainerFilter(term, specialization))
    ensures sortBy == "rating" ==>
      StableBy(r, Filter(trainers, TrainerFilter(term, specialization)), RatingDescKey)
    ensures sortBy == "experience" ==>
      StableBy(r, Filter(trainers, TrainerFilter(term, specialization)), ExperienceDescKey)
    ensures sortBy == "price" ==>
      StableBy(r, Filter(trainers, TrainerFilter(term, specialization)), PriceKey)
  {
    var filtered := Filter(trainers, TrainerFilter(term, specialization));
    var r := SortTrainers(filtered, sortBy);
    PermutationMembers(filtered, r);
    r
  }

  /** On arrival (empty search, no specialization, default sort) the page shows every
      trainer, best rated first. */
  lemma InitialView(trainers: seq<Trainer>)
    ensures var r := FilteredTrainers(trainers, "", "", InitialSortBy);
      && multiset(r) == multiset(trainers)
      && (forall i, j :: 0 <= i < j < |r| ==> r[i].rating >= r[j].rating)
  {
    forall i | 0 <= i < |trainers|
      ensures TrainerFilter("", "")(trainers[i])
    {
      ContainsEmpty(Lower(trainers[i].name));
    }
    FilterKeepsAll(trainers, TrainerFilter("", ""));
  }
}

=== FILE: wrappers.dfy ===
/** Failure-carrying values shared by every module of the model.
    `Option` stands for Java's `Optional`/nullable references and for JavaScript's
    `undefined`; `Result` stands for a call that either returns a value or throws. */
module Wrappers {

  datatype Option<+T> = None | Some(value: T) {

    /** The wrapped value, or `default` when there is none (`Optional.orElse`, `x || d`). */
    function GetOr(default: T): T {
      match this
      case Some(v) => v
      case None => default
    }
  }

  datatype Result<+R, +E> = Ok(value: R) | Err(error: E) {

    predicate IsFailure() {
      Err?
    }

    function PropagateFailure<U>(): Result<U, E>
      requires Err?
    {
      Err(error)
    }

    function Extract(): R
      requires Ok?
    {
      value
    }
  }
}
